=== FILE: README.md ===
# Password generator: controller and request handler

A Dafny model of the two halves of the password generator's request path.
The browser controller builds a `generate-password` form request, shows the
result with a scramble animation, copies passwords to the clipboard, and
keeps the user's preferences in the `pwgen-settings` cookie. The server's
request handler reads that form with configured fallbacks. It builds the
password alphabet or calls the passphrase generator. It then regenerates
the candidate while the breach check reports it, up to ten times.

The modules follow the program's structure:

- `FormData`: the form body as an ordered list of `(name, value)` fields.
  `.get` and `FormData.append` work on this list.
- `RequestEncoding`: `generatePassword` flattening the page's settings into
  fields.
- `RequestHandler`: `get_bool`, the `int()` readings, the language choice,
  the alphabet, the breach-retry loop and the handler as a whole.
- `Seam`: the two sides together. The handler reads exactly the options the
  page shows.
- `ResponseRendering`, `Scramble`, `Clipboard`: the response branch, the
  animation and `copyPassword`.
- `CookieJar`, `SettingsStore`: a small model of `document.cookie`, plus
  `saveSettings` and `loadSettings` on top of it.
- `Text`, `Decimal`, `Wrappers`: the string operations of JavaScript and
  Python that the code relies on (`split`, `join`, `indexOf`, `startsWith`,
  `lower`, `int`), and `Option`/`Result`.

Randomness, the breach check, the word-list download, the passphrase
generator, the homoglyph filter and `JSON.stringify`/`JSON.parse` are
parameters. Each is a function value. A property of its results is assumed
only where a lemma states it as a hypothesis about that parameter.

Field names are the constructors of `FormData.FieldName`, not strings.
`FormData.WireName` gives the spelling each side uses, and
`FormData.WireNameInjective` shows that no two fields share a spelling. So
naming a field by its constructor loses nothing.

The code does the following, which its comments do not suggest:

- A timer left over from an earlier scramble animation writes that
  animation's whole array to the field, not one character.
  `Scramble.StaleTimerOverwrites` shows that such a timer undoes a newer
  password that has fully appeared.
- The fallback copy shows "copied!" whenever `execCommand` returns, even
  when it returns `false`.
- `loadSettings` re-runs the passphrase toggle, which asks for a new
  password.
- `saveSettings` writes the JSON text into the cookie unescaped. A `;` in a
  custom separator or custom language ends the cookie value there, and the
  rest is read as cookie attributes. `SettingsStore.SemicolonCutsSnapshot`
  states what a later load then sees: only the text before the `;`, which is
  not valid JSON, so the load clears the cookie.

## Model

| member | source | states |
|---|---|---|
| FormData.Lookup | handlers/request_handler.py:20 | a form lookup is absent exactly when no field has the name, and otherwise yields the value of a field carrying that name |
| FormData.Get | handlers/request_handler.py:20-34 | `.get(name, default)` yields the field's value when the name is present and the default when it is absent |
| FormData.LookupDistinct | handlers/request_handler.py:20-34 | in a body with no repeated names, the lookup of any field's name finds that field |
| FormData.WireNameInjective | static/index.js:62-79 | distinct request fields have distinct wire names |
| RequestEncoding.EncodeRequest | static/index.js:60-80 | the request has 13 to 15 fields and starts with the length slider |
| RequestEncoding.EncodeDistinctKeys | static/index.js:60-80 | no field name is appended twice, so first-match and last-match readings agree |
| RequestEncoding.EncodeSliders | static/index.js:62-75 | length, word count and word-length cap travel as the sliders' text, unchanged |
| RequestEncoding.EncodeCheckboxes | static/index.js:63-69 | each of the seven checkboxes travels as `"true"` or `"false"` according to its state |
| RequestEncoding.EncodeSeparator | static/index.js:71-74 | `separator_type` is `single_character` for a custom separator and the chosen name otherwise; the literal separator is present exactly for a custom separator and carries the typed text |
| RequestEncoding.EncodeType | static/index.js:76 | `type` is `passphrase` exactly when the toggle is on |
| RequestEncoding.EncodeLanguage | static/index.js:77-80 | `language` always travels; `languageCustom` is present exactly for the `custom` language and carries the typed code |
| RequestEncoding.TypeValue | static/index.js:76 | the discriminant is `passphrase` iff the toggle is on and `password` iff it is off |
| RequestHandler.GetBool | handlers/request_handler.py:14-15 | a missing field reads as the configured default; a present one is true exactly when its lower-cased text is `true` |
| RequestHandler.GetBoolSpellsTrue | handlers/request_handler.py:14-15 | a present field reads as true exactly when it is a case variant of `true` (`TRUE`, `True`, `tRuE`, ...) |
| RequestHandler.GetInt | handlers/request_handler.py:22 | an integer field falls back to the default when absent and otherwise is the field's `int()` reading, which may fail |
| RequestHandler.ReadOptions | handlers/request_handler.py:20-34 | the options are read exactly when all three integer fields parse; a bad `length` raises `ValueError` on `length` |
| RequestHandler.TypeDefaultsToPassword | handlers/request_handler.py:27 | a request without `type` is a password request; otherwise the type is the sent text |
| RequestHandler.ResolveLanguage | handlers/request_handler.py:36-44 | a built-in language passes through with no word list; any other language downloads `languageCustom`, becomes `custom` on success and passes on the download error on failure |
| RequestHandler.Charset | handlers/request_handler.py:46-55 | the alphabet is the lower-case block, then the upper-case, digit and special blocks when enabled, in that order, each block filtered when homoglyphs are excluded; its length is the sum of the blocks' lengths |
| RequestHandler.CharsetLayout | handlers/request_handler.py:46-55 | without homoglyph exclusion the alphabet is lower case, then upper case, digits and specials exactly as enabled, in that order, with the matching length |
| RequestHandler.CharsetMembership | handlers/request_handler.py:46-55 | without homoglyph exclusion a character is in the alphabet iff it is a lower-case letter or belongs to an enabled block |
| RequestHandler.PasswordCandidate | handlers/request_handler.py:79 | a candidate has the requested length (none for a negative length) and uses only alphabet characters |
| RequestHandler.RetryFrom | handlers/request_handler.py:66-75 | the retry loop settles on at most the eleventh candidate, every earlier candidate was reported breached, and it stops early only on a clean one |
| RequestHandler.RetryLoop | handlers/request_handler.py:81-86 | the loop as written performs one more check than regenerations and returns the same candidate as the recursive definition |
| RequestHandler.RetryFirstClean | handlers/request_handler.py:66-69 | the loop returns the first candidate that the breach check passes |
| RequestHandler.RetryAllPwned | handlers/request_handler.py:81-86 | when every check reports a breach the loop gives up after ten regenerations with the last candidate |
| RequestHandler.Generate | handlers/request_handler.py:57-89 | generation raises only for a password request with positive length and an empty alphabet; a reply's entropy is that of its password |
| RequestHandler.FetchErrorReply | handlers/request_handler.py:43 | the download error reply carries entropy 0 and the error text after the fixed prefix |
| RequestHandler.Handle | handlers/request_handler.py:18-91 | an unreadable integer field raises; a reply carrying line 43's literal entropy 0 starts with the download-error prefix; every other reply's entropy is computed from its password |
| RequestHandler.HandleFetchFailure | handlers/request_handler.py:38-43 | a failed download of a non-built-in language yields the error reply, whatever the request type |
| RequestHandler.HandleGenerates | handlers/request_handler.py:36-91 | a built-in language reaches generation with no word list; any other language whose download succeeds reaches generation as `custom` with the downloaded list |
| RequestHandler.PasswordRetry | handlers/request_handler.py:76-86 | retrying password candidates settles on one of the first eleven, and every candidate before it was reported breached |
| RequestHandler.GeneratePasswordMode | handlers/request_handler.py:76-86 | a password reply is one of the first eleven candidates, has the requested length, uses only alphabet characters, and every candidate before it was breached |
| RequestHandler.GeneratePassphraseMode | handlers/request_handler.py:58-75 | a passphrase reply is one of the first eleven generator results for the request's options and resolved language, and every one before it was breached |
| Decimal.ParseInt | handlers/request_handler.py:22-32 | `int()` succeeds exactly on one or more ASCII digits with an optional leading `+` or `-`, so empty text fails; the value is that of the digits read most significant first (leading zeros allowed), negated after a `-` |
| Decimal.ParseDecimalText | handlers/request_handler.py:22 | `int()` of a number's decimal text gives the number back |
| Seam.CheckboxRead | handlers/request_handler.py:14-15 | a checkbox written by the client as `String(b)` is read by `get_bool` as `b`, whatever the default |
| Seam.CheckboxesSurvive | static/index.js:63-69 | every one of the seven checkboxes reaches the handler with the state the page shows |
| Seam.SlidersSurvive | handlers/request_handler.py:22-32 | slider text that is a number's decimal text is read back as that number |
| Seam.TextFieldsSurvive | handlers/request_handler.py:20-31 | the language, custom language, type, separator type and custom separator are read as the page means them, and the configured fallbacks apply exactly to the custom fields the page did not send |
| Seam.RequestRoundTrip | handlers/request_handler.py:20-34 | when the sliders show decimal text, the handler reads exactly the options the page means (`Seam.Intended`, defined directly from the page settings) |
| Seam.ToggleSelectsGenerator | handlers/request_handler.py:58 | the passphrase toggle alone decides which generator runs |
| Seam.CustomLanguageFetched | handlers/request_handler.py:38-44 | a custom language typed on the page is the word list the handler downloads, and the generator is told `custom` |
| ResponseRendering.FillSlots | static/index.js:92-97 | slot `j` holds batch entry `j` when there is one and keeps its text otherwise; entries past the fifth are dropped |
| ResponseRendering.Render | static/index.js:89-103 | a `passwords` array fills the slots and leaves the main field alone; otherwise the main field shows `password` and the animation starts for it, or the field shows `undefined` when the property is missing |
| ResponseRendering.RenderThenSettle | static/index.js:98-122 | the animation `Render` starts is for the password it has just written, and once its timers have all fired the shared field shows that password again |
| ResponseRendering.BatchTruncation | static/index.js:91-97 | a batch of five or more shows exactly its first five entries, in order |
| Scramble.RandomCharacter | static/index.js:126-129 | every scramble character is drawn from the fixed 92-character alphabet |
| Scramble.Start | static/index.js:111-113 | the initial mask has the final password's length and consists of alphabet characters |
| Scramble.Fire | static/index.js:118-121 | a timer sets its own position to the final character and leaves the others alone |
| Scramble.FireAll | static/index.js:116-122 | after any sequence of timers, exactly the fired positions show their final characters |
| Scramble.DisplayBetween | static/index.js:111-122 | while timers are pending each position shows its mask or its final character, and the length never changes |
| Scramble.Converges | static/index.js:111-122 | once every timer has fired, in any order, the animation's array holds the final password |
| Scramble.Launch | static/index.js:111-113 | starting an animation adds it after the earlier ones, which keep running, and writes its mask to the shared field |
| Scramble.Tick | static/index.js:116-120 | a timer updates its own animation's array, writes that whole array to the shared field and leaves every other animation alone |
| Scramble.TickAll | static/index.js:116-122 | after a run of one animation's timers the field shows that animation's array and the other animations are untouched |
| Scramble.FieldSettles | static/index.js:111-122 | once a newly launched animation's timers have each fired once, in any order, the shared field shows the final password |
| Scramble.StaleTimerOverwrites | static/index.js:111-122 | for any older and newer passwords whose first characters differ, once every timer of the newer animation has fired the field shows the newer password, and a remaining timer of the older one then puts the older first character back so the field no longer shows the newer password |
| Clipboard.SourceText | static/index.js:148-154 | index 100 copies the main field, any other index the matching batch slot, and a missing slot copies nothing |
| Clipboard.FreshId | static/index.js:190 | the created textarea is a node distinct from every child of the body |
| Clipboard.RemoveAppended | static/index.js:195-205 | removing the node just appended restores the body's children |
| Clipboard.FallbackCopy | static/index.js:189-206 | the textarea holds the text while the legacy command runs, the body ends as it began even when the command throws, and "copied!" shows exactly when the command returns |
| Clipboard.CopyPassword | static/index.js:148-186 | the fallback runs exactly when the Clipboard API is missing or rejects, the body is left as it was, and a resolved write places the source text on the clipboard |
| CookieJar.ParseAssignment | static/index.js:230-232 | a cookie assignment parses into its name, its value and its attributes |
| CookieJar.ParsePair | static/index.js:230 | the name-value pair of an assignment ends at its first `;` and everything after is split into attributes |
| CookieJar.MaxAgeLastWins | static/index.js:230 | a valid `max-age` attribute decides the lifetime whatever attributes precede it |
| CookieJar.StoreThenValue | static/index.js:230-240 | a stored cookie is what a later read of its name finds |
| CookieJar.Remove | static/index.js:232 | removing a name leaves every other cookie and no cookie with that name |
| CookieJar.Store | static/index.js:230 | storing a cookie replaces any cookie of the same name, keeps the others, and keeps names distinct |
| CookieJar.Write | static/index.js:230-232 | assigning to `document.cookie` keeps the jar well formed |
| CookieJar.ValueOf | static/index.js:239-240 | a cookie's value is found exactly when a cookie of that name is in the jar |
| CookieJar.SplitCookieString | static/index.js:239 | splitting the `document.cookie` string of a non-empty jar on `"; "` gives back each cookie's `name=value` entry (an empty jar's string splits to one empty entry) |
| CookieJar.FindEntry | static/index.js:240 | the first entry starting with `name=` is the named cookie's entry, and there is none exactly when the cookie is absent |
| CookieJar.FindCookie | static/index.js:239-240 | searching the split cookie string finds exactly the named cookie's entry |
| SettingsStore.Save | static/index.js:210-235 | a page without the save box writes nothing; a ticked box writes the encoded snapshot with the one-year attributes; an unticked box writes the expiring assignment |
| SettingsStore.ClearRemoves | static/index.js:232 | the clearing assignment removes the settings cookie and nothing else |
| SettingsStore.SaveStores | static/index.js:230 | a save whose encoding has no `;` stores the encoding as the settings cookie and leaves the other cookies alone |
| SettingsStore.SettingsPayload | static/index.js:239-243 | the text handed to `JSON.parse` is what follows `pwgen-settings=` in the first matching entry, and there is none exactly when no entry matches |
| SettingsStore.Apply | static/index.js:245-270 | every preference is restored, the custom separator and language only when their select says `custom`, and a present save box is ticked |
| SettingsStore.ApplyExact | static/index.js:257-267 | a snapshot is restored exactly iff each custom field it carries is in use or already on the page |
| SettingsStore.Load | static/index.js:238-277 | with no settings entry nothing happens; when `JSON.parse` of the entry's payload fails the cookie is cleared and the form left alone; when it succeeds the parsed snapshot is applied and the password regenerated |
| SettingsStore.LoadFromJar | static/index.js:238-277 | loading depends only on the settings cookie: absent means nothing happens, unparseable means it is cleared, parseable means it is applied |
| SettingsStore.CorruptCookieCleared | static/index.js:272-275 | a corrupt settings cookie is cleared on the first load, so a second load leaves the form alone |
| SettingsStore.SaveStoresHead | static/index.js:230 | a save whose encoding contains `;` stores only the text before the first `;` as the settings cookie |
| SettingsStore.SemicolonCutsSnapshot | static/index.js:230-243 | after such a save the cookie holds the text before the `;`, and loading decodes only that text, clearing the cookie when it does not parse |
| SettingsStore.SaveThenLoad | static/index.js:210-277 | saving with the box ticked and loading again restores the snapshot and regenerates |
| SettingsStore.ClearThenLoad | static/index.js:231-241 | saving with the box unticked and loading again finds nothing and leaves the form as it is |
| Text.SplitJoin | static/index.js:239 | splitting a join gives back the pieces when no piece contains the separator's first character |
| Text.SplitBeforeJoin | static/index.js:230 | splitting text, a `;` and joined attributes gives the text's own pieces followed by the attributes |
| Text.FirstWithPrefix | static/index.js:240 | `find` with `startsWith` returns the first entry carrying the prefix, or nothing exactly when no entry does |
| Text.IndexOfChar | static/index.js:243 | `indexOf` gives the first position of the character, or -1 exactly when it does not occur |

## Left out

- Python's `int()` accepts surrounding whitespace, underscores between digits and non-ASCII digits. `Decimal.ParseInt` accepts only an optional sign followed by ASCII digits. The client only sends slider text, so this does not matter for requests from the page.
- RequestHandler.GetBool: lower-cases ASCII letters only. Python's `str.lower` also folds other letters, but none of them lower-cases to a letter of `true`, so the verdict is the same.
- The DOM: the values a select or slider can hold, the display of the custom fields, label texts, the button-text timers and the `loading` class are not modelled. The settings are the strings and booleans the controls report.
- The `.then(refreshpw.classList.add('loading'))` call passes `undefined` to `then`. It only affects styling, so it is not modelled.
- The network: `fetch`, the HTTP layer and the JSON response are not modelled. A rejected request or a non-JSON reply is only logged by the code.
- JavaScript strings are UTF-16 and the model uses Dafny characters.
- JSON is an abstract `Codec`, a pair of functions. The model does not define which texts parse.
- SettingsStore.SaveThenLoad: requires the encoding to contain no `;` and to decode back to the snapshot. A snapshot whose encoding contains `;` does not survive the round trip; `SettingsStore.SemicolonCutsSnapshot` covers that case.
- `document.cookie` is a small model of RFC 6265: the pair ends at the first `;`, an `=` and a non-empty name are required, a `max-age` of zero or less deletes, and a same-name cookie is replaced in place. Whitespace trimming, paths, domains, expiry by time, attribute-name case and size limits are not modelled.
- Exceptions thrown by the controls while `loadSettings` applies a snapshot would leave it half applied. The model applies a parsed snapshot whole, and only `JSON.parse` may fail.
- Asynchrony: the order in which responses, timers and clipboard promises settle is an explicit parameter (a firing order or an outcome value). Overlapping animations are covered through `Scramble.StaleTimerOverwrites`. The order in which the replies of overlapping requests are rendered is not modelled.
- `calculate_entropy` is a float computation in another file. `RequestHandler.Entropy` records which string it was computed for.
- RequestHandler.Handle: a computed entropy of 0 (for instance for an empty password) is not distinguished from the literal 0 of line 43. The model tags only that literal as `Zero`, so the contract about zero-entropy replies speaks of the literal alone.
- Exceptions raised inside `check_password_pwned`, `generate_passphrase`, `filter_homoglyphs` and `calculate_entropy` propagate out of the handler. The model's `Services` and `Entropy` make these total, because their code is outside the model; only the handler's own `ValueError`s are modelled.
- Decimal.ParseInt: Python 3.11 and later make `int()` raise `ValueError` on a string of more than 4300 digits. `Decimal.ParseInt` accepts digit strings of any length.
- The internals of `generate_passphrase`, `check_password_pwned`, `fetch_custom_wordlist` and `filter_homoglyphs` are in files outside this model. They are parameters.
- RequestHandler.CharsetLayout: with homoglyph exclusion the alphabet depends on the external filter, so the layout and membership lemmas cover only the unfiltered alphabet.
- The configuration module is a `Config` parameter, not fixed constants.

=== FILE: clipboard.dfy ===
/** `copyPassword`: copy a shown password to the clipboard through the
    asynchronous Clipboard API, or through a temporary textarea and the
    legacy copy command when that API is missing or its write rejects. The
    document body is modelled as its list of child nodes. */
module Clipboard {
  import opened Wrappers
  import opened ResponseRendering

  /** A child of `document.body`; `id` stands for node identity. */
  datatype Node = Node(id: nat, tag: string, value: string)

  /** What `navigator.clipboard.writeText` does, if it exists. */
  datatype ClipboardApi = Missing | WriteResolves | WriteRejects

  /** What `document.execCommand('copy')` does. */
  datatype LegacyCopy = Returned(successful: bool) | Threw

  /** The button value that copies the main field; any other index names a
      batch slot. */
  const MainField: int := 100

  /** The text `copyPassword(index)` copies: the main field for 100, slot
      `index` otherwise; `None` when no such element exists (the lookup
      throws and nothing is copied). */
  function SourceText(page: Page, index: int): (r: Option<string>)
    ensures index == MainField ==> r == Some(page.display)
    ensures index != MainField && 0 <= index < |page.slots| ==> r == Some(page.slots[index])
    ensures index != MainField && !(0 <= index < |page.slots|) ==> r.None?
  {
    if index == MainField then Some(page.display)
    else if 0 <= index < |page.slots| then Some(page.slots[index])
    else None
  }

  predicate HasId(children: seq<Node>, id: nat) {
    exists k :: 0 <= k < |children| && children[k].id == id
  }

  /** An identity no current child has: `createElement` makes a new node. */
  function FreshId(children: seq<Node>): (id: nat)
    ensures !HasId(children, id)
    ensures forall k :: 0 <= k < |children| ==> children[k].id < id
  {
    if |children| == 0 then 0
    else
      var rest := FreshId(children[1..]);
      var id := if children[0].id + 1 > rest then children[0].id + 1 else rest;
      assert forall k :: 1 <= k < |children| ==> children[k] == children[1..][k - 1];
      id
  }

  /** `parent.removeChild(node)`: the node leaves, the other children keep
      their order. */
  function RemoveChild(children: seq<Node>, node: Node): (r: seq<Node>)
    requires node in children
    ensures |r| == |children| - 1
  {
    if children[0] == node then children[1..]
    else [children[0]] + RemoveChild(children[1..], node)
  }

  /** Removing the node just appended restores the children as they were. */
  lemma {:induction false} RemoveAppended(children: seq<Node>, node: Node)
    requires node !in children
    ensures RemoveChild(children + [node], node) == children
  {
    if |children| > 0 {
      assert (children + [node])[1..] == children[1..] + [node];
      RemoveAppended(children[1..], node);
    }
  }

  /** The result of a copy: the body's children while the legacy command ran
      (`None` when the fallback did not run), the children afterwards, the
      text placed on the clipboard, and whether the "copied!" confirmation
      appeared. */
  datatype CopyResult = CopyResult(
    duringCopy: Option<seq<Node>>,
    body: seq<Node>,
    clipboard: Option<string>,
    confirmed: bool)

  /** `fallbackCopy`: append a textarea holding the text, run the legacy
      command, remove the textarea whether the command returned or threw.
      The confirmation appears whenever the command returns, even when it
      reports failure. */
  function FallbackCopy(body: seq<Node>, text: string, exec: LegacyCopy): (r: CopyResult)
    ensures r.duringCopy.Some?
    ensures |r.duringCopy.value| == |body| + 1
    ensures r.duringCopy.value[..|body|] == body
    ensures r.duringCopy.value[|body|].tag == "textarea" && r.duringCopy.value[|body|].value == text
    ensures r.body == body
    ensures r.confirmed <==> exec.Returned?
    ensures r.clipboard == if exec == Returned(true) then Some(text) else None
  {
    var textArea := Node(FreshId(body), "textarea", text);
    var during := body + [textArea];
    assert textArea !in body;
    RemoveAppended(body, textArea);
    var after := RemoveChild(during, textArea);
    assert during[..|body|] == body;
    CopyResult(Some(during), after, if exec == Returned(true) then Some(text) else None, exec.Returned?)
  }

  /** `copyPassword(index)`: `None` when the source element does not exist.
      The fallback runs exactly when the Clipboard API is missing or its
      write rejects; either way the body ends with the children it began
      with. */
  function CopyPassword(page: Page, index: int, body: seq<Node>, api: ClipboardApi, exec: LegacyCopy)
    : (r: Option<CopyResult>)
    ensures r.Some? <==> SourceText(page, index).Some?
    ensures r.Some? ==> r.value.body == body
    ensures r.Some? ==> (r.value.duringCopy.Some? <==> api != WriteResolves)
    ensures r.Some? ==> (r.value.confirmed <==> api == WriteResolves || exec.Returned?)
    ensures r.Some? && api == WriteResolves ==> r.value.clipboard == SourceText(page, index)
  {
    match SourceText(page, index)
    case None => None
    case Some(text) =>
      if api == WriteResolves then Some(CopyResult(None, body, Some(text), true))
      else Some(FallbackCopy(body, text, exec))
  }
}

=== FILE: cookie_jar.dfy ===
/** The slice of the browser's cookie handling that `saveSettings` and
    `loadSettings` rely on, after RFC 6265: assigning to `document.cookie`
    parses a set-cookie string (section 5.2), a non-positive Max-Age removes
    the cookie, a cookie with an existing name replaces it in place (section
    5.3), and reading `document.cookie` joins `name=value` pairs with "; "
    (section 5.4). Domains, paths, expiry times and whitespace trimming are
    not modelled. */
module CookieJar {
  import opened Wrappers
  import opened Text
  import opened Decimal

  datatype Cookie = Cookie(name: string, value: string)

  /** The stored cookies in `document.cookie` order. */
  type Jar = seq<Cookie>

  predicate DistinctNames(jar: Jar) {
    forall i, j :: 0 <= i < j < |jar| ==> jar[i].name != jar[j].name
  }

  /** What set-cookie parsing lets into the jar: a non-empty name free of
      `=` and `;`, and a value free of `;`. */
  predicate SoundCookie(c: Cookie) {
    |c.name| > 0 && NoChar(c.name, '=') && NoChar(c.name, ';') && NoChar(c.value, ';')
  }

  /** What a jar built by set-cookie parsing looks like: sound cookies, no
      name twice. */
  predicate WellFormed(jar: Jar) {
    && (forall k :: 0 <= k < |jar| ==> SoundCookie(jar[k]))
    && DistinctNames(jar)
  }

  /** The `name=value` text of each cookie. */
  function Entries(jar: Jar): (rows: seq<string>)
    ensures |rows| == |jar|
    ensures forall k :: 0 <= k < |jar| ==> rows[k] == jar[k].name + "=" + jar[k].value
  {
    seq(|jar|, k requires 0 <= k < |jar| => jar[k].name + "=" + jar[k].value)
  }

  /** Reading `document.cookie`. */
  function CookieString(jar: Jar): string {
    Join(Entries(jar), "; ")
  }

  /** A parsed assignment to `document.cookie`. */
  datatype SetCookie = SetCookie(name: string, value: string, attributes: seq<string>)

  /** RFC 6265 section 5.2: the name-value pair runs to the first `;`; it needs an
      `=` and a non-empty name, else the assignment is ignored. The
      attributes are the `;`-separated pieces after the pair. */
  function ParseSetCookie(assignment: string): (r: Option<SetCookie>)
    ensures r.Some? ==> |r.value.name| > 0 && NoChar(r.value.name, '=') && NoChar(r.value.name, ';')
    ensures r.Some? ==> NoChar(r.value.value, ';')
  {
    var semi := IndexOfChar(assignment, ';');
    var pair := if semi == -1 then assignment else assignment[..semi];
    var attributes := if semi == -1 then [] else Split(assignment[semi + 1..], ";");
    var eq := IndexOfChar(pair, '=');
    if eq <= 0 then None
    else Some(SetCookie(pair[..eq], pair[eq + 1..], attributes))
  }

  /** A name without `=` or `;` and a value without `;` form a pair with
      no `;`. */
  lemma PairHasNoSemicolon(name: string, value: string)
    requires NoChar(name, ';') && NoChar(value, ';')
    ensures NoChar(name + "=" + value, ';')
  {
    var pair := name + "=" + value;
    forall i | 0 <= i < |pair| ensures pair[i] != ';' {
      if i < |name| {
        assert pair[i] == name[i];
      } else if i > |name| {
        assert pair[i] == value[i - |name| - 1];
      }
    }
  }

  /** An assignment `name=value;rest` whose name has no `=` or `;` and
      whose value has no `;` parses into that name and value, with the
      `;`-separated pieces of `rest` as attributes. */
  lemma ParsePair(name: string, value: string, rest: string)
    requires |name| > 0 && NoChar(name, '=') && NoChar(name, ';') && NoChar(value, ';')
    ensures ParseSetCookie(name + "=" + value + ";" + rest)
            == Some(SetCookie(name, value, Split(rest, ";")))
  {
    var pair := name + ['='] + value;
    PairHasNoSemicolon(name, value);
    IndexOfCharAfter(pair, ';', rest);
    IndexOfCharAfter(name, '=', value);
  }

  /** An assignment `name=value;attr;attr...` with no stray `;` or `=`
      parses into exactly those parts. */
  lemma ParseAssignment(name: string, value: string, attributes: seq<string>)
    requires |name| > 0 && NoChar(name, '=') && NoChar(name, ';') && NoChar(value, ';')
    requires |attributes| >= 1
    requires forall k :: 0 <= k < |attributes| ==> NoChar(attributes[k], ';')
    ensures ParseSetCookie(name + "=" + value + ";" + Join(attributes, ";"))
            == Some(SetCookie(name, value, attributes))
  {
    ParsePair(name, value, Join(attributes, ";"));
    SplitJoin(attributes, ";");
  }

  /** RFC 6265 section 5.2.2: a Max-Age value is an optional `-` followed by digits. */
  function MaxAgeValue(v: string): (r: Option<int>)
    ensures r.Some? && |v| > 0 && v[0] == '-' ==> r.value <= 0
    ensures r.Some? && AllDigits(v) ==> r.value >= 0
  {
    if |v| >= 2 && v[0] == '-' && AllDigits(v[1..]) then Some(0 - DigitsValue(v[1..]))
    else if |v| >= 1 && AllDigits(v) then Some(DigitsValue(v))
    else None
  }

  const MaxAgePrefix := "max-age="

  /** The Max-Age in effect: the last well-formed `max-age` attribute. */
  function MaxAge(attributes: seq<string>): Option<int>
  {
    if |attributes| == 0 then None
    else
      var last := attributes[|attributes| - 1];
      var value := if StartsWith(last, MaxAgePrefix) then MaxAgeValue(last[|MaxAgePrefix|..]) else None;
      if value.Some? then value else MaxAge(attributes[..|attributes| - 1])
  }

  /** Attributes placed before a valid Max-Age are overridden by it: the
      last valid one wins. */
  lemma {:induction false} MaxAgeLastWins(front: seq<string>, back: seq<string>)
    requires MaxAge(back).Some?
    ensures MaxAge(front + back) == MaxAge(back)
    decreases |back|
  {
    var all := front + back;
    assert all[|all| - 1] == back[|back| - 1];
    var last := back[|back| - 1];
    var value := if StartsWith(last, MaxAgePrefix) then MaxAgeValue(last[|MaxAgePrefix|..]) else None;
    if value.None? {
      assert all[..|all| - 1] == front + back[..|back| - 1];
      MaxAgeLastWins(front, back[..|back| - 1]);
    }
  }

  /** The jar without the cookie named `name`. */
  function Remove(jar: Jar, name: string): (r: Jar)
    ensures forall k :: 0 <= k < |r| ==> r[k].name != name
    ensures forall c :: c in r <==> c in jar && c.name != name
  {
    if |jar| == 0 then []
    else if jar[0].name == name then Remove(jar[1..], name)
    else [jar[0]] + Remove(jar[1..], name)
  }

  lemma WellFormedTail(jar: Jar)
    requires WellFormed(jar) && |jar| > 0
    ensures WellFormed(jar[1..]) && SoundCookie(jar[0])
    ensures forall c :: c in jar[1..] ==> c.name != jar[0].name
  {
    var rest := jar[1..];
    forall k | 0 <= k < |rest| ensures SoundCookie(rest[k]) && rest[k].name != jar[0].name {
      assert rest[k] == jar[k + 1];
    }
    forall i, j | 0 <= i < j < |rest| ensures rest[i].name != rest[j].name {
      assert rest[i] == jar[i + 1] && rest[j] == jar[j + 1];
    }
  }

  lemma WellFormedCons(c: Cookie, tail: Jar)
    requires SoundCookie(c) && WellFormed(tail)
    requires forall d :: d in tail ==> d.name != c.name
    ensures WellFormed([c] + tail)
  {
    var r := [c] + tail;
    forall j | 0 < j < |r| ensures r[j] == tail[j - 1] && r[j].name != c.name {
      assert tail[j - 1] in tail;
    }
  }

  /** Removing a cookie keeps the jar well formed. */
  lemma {:induction false} RemoveWellFormed(jar: Jar, name: string)
    requires WellFormed(jar)
    ensures WellFormed(Remove(jar, name))
  {
    if |jar| > 0 {
      WellFormedTail(jar);
      RemoveWellFormed(jar[1..], name);
      if jar[0].name != name {
        WellFormedCons(jar[0], Remove(jar[1..], name));
      }
    }
  }

  /** The jar with `c` stored: it replaces the cookie of the same name in
      place, or joins at the end. */
  function Store(jar: Jar, c: Cookie): (r: Jar)
    requires DistinctNames(jar)
    ensures DistinctNames(r)
    ensures c in r
    ensures forall d :: d in r ==> d == c || (d in jar && d.name != c.name)
    ensures forall d :: d in jar && d.name != c.name ==> d in r
  {
    if |jar| == 0 then [c]
    else if jar[0].name == c.name then [c] + jar[1..]
    else [jar[0]] + Store(jar[1..], c)
  }

  /** Assigning `assignment` to `document.cookie`. */
  function Write(jar: Jar, assignment: string): (r: Jar)
    requires WellFormed(jar)
    ensures WellFormed(r)
  {
    match ParseSetCookie(assignment)
    case None => jar
    case Some(sc) =>
      var maxAge := MaxAge(sc.attributes);
      if maxAge.Some? && maxAge.value <= 0 then
        RemoveWellFormed(jar, sc.name);
        Remove(jar, sc.name)
      else Store(jar, Cookie(sc.name, sc.value))
  }

  /** The value of the cookie named `name`, if the jar holds one. */
  function ValueOf(jar: Jar, name: string): (r: Option<string>)
    ensures r.Some? ==> Cookie(name, r.value) in jar
    ensures r.None? <==> forall k :: 0 <= k < |jar| ==> jar[k].name != name
  {
    if |jar| == 0 then None
    else if jar[0].name == name then Some(jar[0].value)
    else
      assert forall k :: 1 <= k < |jar| ==> jar[k] == jar[1..][k - 1];
      ValueOf(jar[1..], name)
  }

  /** A stored cookie is what a read of its name finds. */
  lemma StoreThenValue(jar: Jar, c: Cookie)
    requires DistinctNames(jar)
    ensures ValueOf(Store(jar, c), c.name) == Some(c.value)
  {
    var after := Store(jar, c);
    var v := ValueOf(after, c.name);
    var i :| 0 <= i < |after| && after[i] == c;
    assert v.Some?;
    var j :| 0 <= j < |after| && after[j] == Cookie(c.name, v.value);
    assert i == j;
  }

  /** Names contain no `=`, so an entry starts with `name=` exactly when it
      is the entry of the cookie called `name`. */
  lemma EntryPrefix(c: Cookie, name: string)
    requires NoChar(c.name, '=') && NoChar(name, '=')
    ensures StartsWith(c.name + "=" + c.value, name + "=") <==> c.name == name
  {
    var entry := c.name + "=" + c.value;
    var prefix := name + "=";
    if StartsWith(entry, prefix) {
      var rest := entry[|prefix|..];
      assert entry == name + "=" + rest;
      IndexOfCharAfter(name, '=', rest);
      IndexOfCharAfter(c.name, '=', c.value);
      assert c.name == entry[..|c.name|] == name;
    }
    if c.name == name {
      assert entry[..|prefix|] == prefix;
    }
  }

  /** Splitting the cookie string at "; " gives back the entries. */
  lemma SplitCookieString(jar: Jar)
    requires WellFormed(jar) && |jar| > 0
    ensures Split(CookieString(jar), "; ") == Entries(jar)
  {
    var rows := Entries(jar);
    forall k | 0 <= k < |rows| ensures NoChar(rows[k], ';') {
      var c := jar[k];
      assert rows[k] == c.name + "=" + c.value;
      forall i | 0 <= i < |rows[k]| ensures rows[k][i] != ';' {
        if i < |c.name| {
          assert rows[k][i] == c.name[i];
        } else if i > |c.name| {
          assert rows[k][i] == c.value[i - |c.name| - 1];
        }
      }
    }
    SplitJoin(rows, "; ");
  }

  /** The first entry that starts with `name=` is the entry of the cookie
      called `name`. */
  lemma FindEntry(jar: Jar, name: string)
    requires WellFormed(jar) && NoChar(name, '=')
    ensures FirstWithPrefix(Entries(jar), name + "=")
            == match ValueOf(jar, name)
               case None => None
               case Some(v) => Some(name + "=" + v)
  {
    var rows := Entries(jar);
    var prefix := name + "=";
    forall k | 0 <= k < |jar|
      ensures StartsWith(rows[k], prefix) <==> jar[k].name == name
    {
      EntryPrefix(jar[k], name);
    }
    match ValueOf(jar, name)
    case None =>
      assert NoneBefore(rows, prefix, |rows|);
    case Some(v) =>
      var k :| 0 <= k < |jar| && jar[k] == Cookie(name, v);
      var found := FirstWithPrefix(rows, prefix);
      assert found.Some?;
      var m :| 0 <= m < |rows| && rows[m] == found.value && NoneBefore(rows, prefix, m);
      assert jar[m].name == name;
      assert m == k;
  }

  /** Reading `document.cookie`, splitting at "; " and taking the first
      entry that starts with `name=` finds exactly the cookie called
      `name`. */
  lemma FindCookie(jar: Jar, name: string)
    requires WellFormed(jar) && NoChar(name, '=')
    ensures FirstWithPrefix(Split(CookieString(jar), "; "), name + "=")
            == match ValueOf(jar, name)
               case None => None
               case Some(v) => Some(name + "=" + v)
  {
    var prefix := name + "=";
    if |jar| == 0 {
      assert CookieString(jar) == "";
      assert FindFrom("", "; ", 0).None?;
      assert Split(CookieString(jar), "; ") == [""];
      assert !StartsWith("", prefix);
    } else {
      SplitCookieString(jar);
      FindEntry(jar, name);
    }
  }
}

=== FILE: decimal.dfy ===
/** Decimal integer text: Python's `int(str)` on the handler side, and the
    digit strings that HTML range inputs report as their value. */
module Decimal {
  import opened Wrappers

  predicate IsDigit(c: char) { '0' <= c <= '9' }

  predicate AllDigits(s: string) {
    forall i :: 0 <= i < |s| ==> IsDigit(s[i])
  }

  function DigitValue(c: char): nat
    requires IsDigit(c)
  {
    c as int - '0' as int
  }

  function DigitChar(d: nat): (c: char)
    requires d < 10
    ensures IsDigit(c) && DigitValue(c) == d
  {
    ('0' as int + d) as char
  }

  /** The value of a digit string, most significant digit first. */
  function DigitsValue(s: string): nat
    requires AllDigits(s)
    decreases |s|
  {
    if |s| == 0 then 0 else DigitsValue(s[..|s| - 1]) * 10 + DigitValue(s[|s| - 1])
  }

  /** A digit string that does not start with `0` denotes a positive number. */
  lemma {:induction false} LeadingDigitPositive(s: string)
    requires |s| > 0 && AllDigits(s) && s[0] != '0'
    ensures DigitsValue(s) > 0
    decreases |s|
  {
    if |s| > 1 {
      LeadingDigitPositive(s[..|s| - 1]);
    }
  }

  /** Python's `int()` applied to a string: an optional `+` or `-` followed by
      one or more ASCII digits; anything else raises `ValueError` (`None`). */
  function ParseInt(s: string): (r: Option<int>)
    ensures r.Some? <==> |s| >= 1 && (AllDigits(s) || ((s[0] == '+' || s[0] == '-') && |s| >= 2 && AllDigits(s[1..])))
    ensures r.Some? && AllDigits(s) ==> r.value >= 0
    ensures r.Some? && s[0] == '+' ==> r.value >= 0
    ensures r.Some? && s[0] == '-' ==> r.value <= 0
    ensures |s| == 0 ==> r.None?
    ensures r.Some? && AllDigits(s) ==> r.value == DigitsValue(s)
    ensures r.Some? && (s[0] == '+' || s[0] == '-') ==>
              r.value == (if s[0] == '-' then -(DigitsValue(s[1..]) as int) else DigitsValue(s[1..]) as int)
  {
    if |s| >= 1 && (s[0] == '+' || s[0] == '-') then
      var body := s[1..];
      if |body| >= 1 && AllDigits(body) then
        var magnitude: int := DigitsValue(body);
        Some(if s[0] == '-' then -magnitude else magnitude)
      else None
    else if |s| >= 1 && AllDigits(s) then Some(DigitsValue(s))
    else None
  }

  /** The canonical decimal text of a natural number (what a range input
      reports, and what `str(n)` prints). */
  function DecimalText(n: nat): (r: string)
    ensures |r| >= 1 && AllDigits(r)
    decreases n
  {
    if n < 10 then [DigitChar(n)] else DecimalText(n / 10) + [DigitChar(n % 10)]
  }

  /** Reading a number's decimal text back yields the number. */
  lemma {:induction false} DigitsValueOfDecimalText(n: nat)
    ensures DigitsValue(DecimalText(n)) == n
    decreases n
  {
    if n >= 10 {
      var t := DecimalText(n);
      DigitsValueOfDecimalText(n / 10);
      assert t[..|t| - 1] == DecimalText(n / 10);
    }
  }

  /** `int(str(n)) == n` for every natural number. */
  lemma ParseDecimalText(n: nat)
    ensures ParseInt(DecimalText(n)) == Some(n)
  {
    DigitsValueOfDecimalText(n);
  }
}

=== FILE: form_data.dfy ===
/** Form-encoded request bodies: the browser's `FormData` on the client and
    the request form the handler reads with `.get(name, default)`. */
module FormData {
  import opened Wrappers

  /** The names of the request fields. Both sides spell each the same way
      (`WireName`), so the model identifies a field by its name. */
  datatype FieldName =
    | Length | IncludeUppercase | IncludeDigits | IncludeSpecial | ExcludeHomoglyphs
    | IncludeNumbers | IncludeSpecialChars | Capitalize | WordCount | SeparatorType
    | UserDefinedSeparator | MaxWordLength | Type | Language | LanguageCustom

  /** The name as it appears in the request body. */
  function WireName(f: FieldName): string {
    match f
    case Length => "length"
    case IncludeUppercase => "include_uppercase"
    case IncludeDigits => "include_digits"
    case IncludeSpecialChars => "include_special_chars"
    case IncludeSpecial => "include_special"
    case ExcludeHomoglyphs => "exclude_homoglyphs"
    case IncludeNumbers => "include_numbers"
    case Capitalize => "capitalize"
    case WordCount => "word_count"
    case SeparatorType => "separator_type"
    case UserDefinedSeparator => "user_defined_separator"
    case MaxWordLength => "max_word_length"
    case Type => "type"
    case LanguageCustom => "languageCustom"
    case Language => "language"
  }

  /** Different fields have different wire names, so identifying a field by
      its `FieldName` loses nothing. */
  lemma WireNameInjective(a: FieldName, b: FieldName)
    ensures WireName(a) == WireName(b) ==> a == b
  {
  }

  /** One appended `(name, value)` pair. */
  type Field = (FieldName, string)

  /** The pairs in the order they were appended. */
  type Fields = seq<Field>

  predicate HasKey(form: Fields, key: FieldName) {
    exists k :: 0 <= k < |form| && form[k].0 == key
  }

  /** The value of the first field named `key`, if any. */
  function Lookup(form: Fields, key: FieldName): (r: Option<string>)
    ensures r.None? <==> !HasKey(form, key)
    ensures r.Some? ==> exists k :: 0 <= k < |form| && form[k] == (key, r.value)
  {
    if |form| == 0 then None
    else if form[0].0 == key then Some(form[0].1)
    else
      var r := Lookup(form[1..], key);
      assert HasKey(form, key) ==> HasKey(form[1..], key) by {
        if HasKey(form, key) {
          var k :| 0 <= k < |form| && form[k].0 == key;
          assert form[1..][k - 1] == form[k];
        }
      }
      assert r.Some? ==> exists k :: 0 <= k < |form| && form[k] == (key, r.value) by {
        if r.Some? {
          var k :| 0 <= k < |form[1..]| && form[1..][k] == (key, r.value);
          assert form[k + 1] == (key, r.value);
        }
      }
      r
  }

  /** `request_form.get(key, default)`. */
  function Get(form: Fields, key: FieldName, default: string): (r: string)
    ensures HasKey(form, key) ==> Lookup(form, key) == Some(r)
    ensures !HasKey(form, key) ==> r == default
  {
    Lookup(form, key).GetOr(default)
  }

  /** No name is appended twice, so first-match and last-match lookups agree. */
  predicate DistinctKeys(form: Fields) {
    forall i, j :: 0 <= i < j < |form| ==> form[i].0 != form[j].0
  }

  /** A lookup finds the field at `k` when no earlier field has its name. */
  lemma {:induction false} LookupFirst(form: Fields, k: nat)
    requires k < |form|
    requires forall j :: 0 <= j < k ==> form[j].0 != form[k].0
    ensures Lookup(form, form[k].0) == Some(form[k].1)
    decreases k
  {
    if k > 0 {
      assert form[1..][k - 1] == form[k];
      LookupFirst(form[1..], k - 1);
    }
  }

  /** In a form without repeated names, the field at `k` is what a lookup of
      its name finds. */
  lemma LookupDistinct(form: Fields, k: nat)
    requires DistinctKeys(form) && k < |form|
    ensures Lookup(form, form[k].0) == Some(form[k].1)
  {
    LookupFirst(form, k);
  }

  /** A name present in the first part of a form is found there. */
  lemma {:induction false} LookupAppendLeft(a: Fields, b: Fields, key: FieldName)
    requires HasKey(a, key)
    ensures HasKey(a + b, key) && Lookup(a + b, key) == Lookup(a, key)
    decreases |a|
  {
    assert (a + b)[0] == a[0];
    if a[0].0 != key {
      assert (a + b)[1..] == a[1..] + b;
      var k :| 0 <= k < |a| && a[k].0 == key;
      assert a[1..][k - 1] == a[k];
      LookupAppendLeft(a[1..], b, key);
    }
    var k :| 0 <= k < |a| && a[k].0 == key;
    assert (a + b)[k] == a[k];
  }

  /** A name absent from the first part of a form is looked up in the rest. */
  lemma {:induction false} LookupAppendRight(a: Fields, b: Fields, key: FieldName)
    requires !HasKey(a, key)
    ensures HasKey(a + b, key) <==> HasKey(b, key)
    ensures Lookup(a + b, key) == Lookup(b, key)
    decreases |a|
  {
    if |a| == 0 {
      assert a + b == b;
    } else {
      assert (a + b)[1..] == a[1..] + b;
      forall k | 0 <= k < |a[1..]| ensures a[1..][k].0 != key {
        assert a[1..][k] == a[k + 1];
      }
      LookupAppendRight(a[1..], b, key);
    }
  }

  /** Two forms without repeated names, sharing none, concatenate into one
      without repeated names. */
  lemma DistinctAppend(a: Fields, b: Fields)
    requires DistinctKeys(a) && DistinctKeys(b)
    requires forall j :: 0 <= j < |b| ==> !HasKey(a, b[j].0)
    ensures DistinctKeys(a + b)
  {
    var ab := a + b;
    forall i, j | 0 <= i < j < |ab| ensures ab[i].0 != ab[j].0 {
      if j >= |a| && i < |a| {
        assert ab[j] == b[j - |a|];
        assert ab[i] == a[i];
      }
    }
  }
}

=== FILE: request_encoding.dfy ===
/** The controller's form state and how `generatePassword` flattens it into
    the form fields of a `POST generate-password` request. */
module RequestEncoding {
  import opened Wrappers
  import opened FormData

  /** The preference snapshot the page holds: the fifteen values that
      `saveSettings` writes and `loadSettings` restores. Slider and select
      values are the strings the DOM reports. */
  datatype Settings = Settings(
    includeUppercase: bool,
    includeDigits: bool,
    includeSpecial: bool,
    excludeHomoglyphs: bool,
    length: string,
    passphraseToggle: bool,
    capitalizeWords: bool,
    includeNumbers: bool,
    includeSpecialChars: bool,
    wordCount: string,
    separator: string,
    customSeparator: string,
    maxWordLength: string,
    language: string,
    customLanguage: string)

  /** The select value meaning "the user typed their own". */
  const Custom := "custom"

  /** `String(b)`: how `FormData.append` writes a checkbox's `checked`. */
  function JsBoolText(b: bool): string {
    if b then "true" else "false"
  }

  /** The `separator_type` value: a custom separator travels as a single
      user-defined character, any other choice as its own name. */
  function SeparatorTypeValue(separator: string): (r: string)
    ensures separator == Custom ==> r == "single_character"
    ensures separator != Custom ==> r == separator
  {
    if separator == Custom then "single_character" else separator
  }

  /** The `type` discriminant chosen by the passphrase toggle. */
  function TypeValue(passphrase: bool): (r: string)
    ensures r == "passphrase" <==> passphrase
    ensures r == "password" <==> !passphrase
  {
    if passphrase then "passphrase" else "password"
  }

  /** The first ten fields: length, the seven checkboxes, the word count
      and the separator type. */
  function ChoiceFields(s: Settings): Fields {
    [ (Length, s.length),
      (IncludeUppercase, JsBoolText(s.includeUppercase)),
      (IncludeDigits, JsBoolText(s.includeDigits)),
      (IncludeSpecial, JsBoolText(s.includeSpecial)),
      (ExcludeHomoglyphs, JsBoolText(s.excludeHomoglyphs)),
      (IncludeNumbers, JsBoolText(s.includeNumbers)),
      (IncludeSpecialChars, JsBoolText(s.includeSpecialChars)),
      (Capitalize, JsBoolText(s.capitalizeWords)),
      (WordCount, s.wordCount),
      (SeparatorType, SeparatorTypeValue(s.separator)) ]
  }

  /** The literal separator, sent only for a custom one. */
  function SeparatorFields(s: Settings): Fields {
    if s.separator == Custom then [(UserDefinedSeparator, s.customSeparator)] else []
  }

  /** The word-length cap, the request type and the language. */
  function ModeFields(s: Settings): Fields {
    [ (MaxWordLength, s.maxWordLength),
      (Type, TypeValue(s.passphraseToggle)),
      (Language, s.language) ]
  }

  /** The typed-in language code, sent only for a custom language. */
  function LanguageFields(s: Settings): Fields {
    if s.language == Custom then [(LanguageCustom, s.customLanguage)] else []
  }

  /** The form fields `generatePassword` appends, in order. */
  function EncodeRequest(s: Settings): (form: Fields)
    ensures 13 <= |form| <= 15
    ensures form[0] == (Length, s.length)
  {
    ChoiceFields(s) + SeparatorFields(s) + ModeFields(s) + LanguageFields(s)
  }

  /** Each of the first ten fields is what a lookup of its name finds. */
  lemma LookupChoice(s: Settings, k: nat)
    requires k < 10
    ensures Lookup(EncodeRequest(s), ChoiceFields(s)[k].0) == Some(ChoiceFields(s)[k].1)
  {
    var head := ChoiceFields(s);
    var tail := SeparatorFields(s) + ModeFields(s) + LanguageFields(s);
    assert EncodeRequest(s) == head + tail;
    LookupFirst(head, k);
    LookupAppendLeft(head, tail, head[k].0);
  }

  /** The fields before the word-length cap. */
  function LeadingFields(s: Settings): Fields {
    ChoiceFields(s) + SeparatorFields(s)
  }

  /** None of the leading fields carries one of the last four names. */
  lemma LeadingLacks(s: Settings, key: FieldName)
    requires key == MaxWordLength || key == Type || key == Language || key == LanguageCustom
    ensures !HasKey(LeadingFields(s), key)
  {
    var lead := LeadingFields(s);
    forall i | 0 <= i < |lead| ensures lead[i].0 != key {
      if i < 10 {
        assert lead[i] == ChoiceFields(s)[i];
      } else {
        assert lead[i] == SeparatorFields(s)[i - 10];
      }
    }
  }

  /** Each of the word-length, type and language fields is what a lookup of
      its name finds. */
  lemma LookupMode(s: Settings, k: nat)
    requires k < 3
    ensures Lookup(EncodeRequest(s), ModeFields(s)[k].0) == Some(ModeFields(s)[k].1)
  {
    var mode := ModeFields(s);
    var key := mode[k].0;
    var tail := mode + LanguageFields(s);
    assert EncodeRequest(s) == LeadingFields(s) + tail;
    LeadingLacks(s, key);
    LookupAppendRight(LeadingFields(s), tail, key);
    LookupFirst(mode, k);
    LookupAppendLeft(mode, LanguageFields(s), key);
  }

  /** The literal separator field is present exactly for a custom separator,
      and carries the typed-in separator. */
  lemma LookupCustomSeparator(s: Settings)
    ensures HasKey(EncodeRequest(s), UserDefinedSeparator) <==> s.separator == Custom
    ensures s.separator == Custom ==>
              Lookup(EncodeRequest(s), UserDefinedSeparator) == Some(s.customSeparator)
  {
    var key := UserDefinedSeparator;
    var choices := ChoiceFields(s);
    var sep := SeparatorFields(s);
    var rest := ModeFields(s) + LanguageFields(s);
    assert EncodeRequest(s) == LeadingFields(s) + rest;
    assert !HasKey(choices, key);
    LookupAppendRight(choices, sep, key);
    if s.separator == Custom {
      LookupFirst(sep, 0);
      LookupAppendLeft(LeadingFields(s), rest, key);
    } else {
      forall i | 0 <= i < |rest| ensures rest[i].0 != key {
        if i >= 3 {
          assert rest[i] == LanguageFields(s)[i - 3];
        }
      }
      LookupAppendRight(LeadingFields(s), rest, key);
    }
  }

  /** Only the last, optional field can be the typed-in language. */
  lemma FrontLacksLanguageCustom(s: Settings)
    ensures !HasKey(LeadingFields(s) + ModeFields(s), LanguageCustom)
  {
    var front := LeadingFields(s) + ModeFields(s);
    LeadingLacks(s, LanguageCustom);
    forall i | 0 <= i < |front| ensures front[i].0 != LanguageCustom {
      if i >= |LeadingFields(s)| {
        assert front[i] == ModeFields(s)[i - |LeadingFields(s)|];
      } else {
        assert front[i] == LeadingFields(s)[i];
      }
    }
  }

  /** The typed-in language field is present exactly for a custom language,
      and carries the typed-in code. */
  lemma LookupCustomLanguage(s: Settings)
    ensures HasKey(EncodeRequest(s), LanguageCustom) <==> s.language == Custom
    ensures s.language == Custom ==>
              Lookup(EncodeRequest(s), LanguageCustom) == Some(s.customLanguage)
  {
    var key := LanguageCustom;
    var front := LeadingFields(s) + ModeFields(s);
    assert EncodeRequest(s) == front + LanguageFields(s);
    FrontLacksLanguageCustom(s);
    LookupAppendRight(front, LanguageFields(s), key);
    if s.language == Custom {
      LookupFirst(LanguageFields(s), 0);
    }
  }

  /** No field name is appended twice. */
  lemma EncodeDistinctKeys(s: Settings)
    ensures DistinctKeys(EncodeRequest(s))
  {
    var lead := LeadingFields(s);
    var mode := ModeFields(s);
    if s.separator == Custom {
      assert !HasKey(ChoiceFields(s), UserDefinedSeparator);
    }
    DistinctAppend(ChoiceFields(s), SeparatorFields(s));
    LeadingLacks(s, MaxWordLength);
    LeadingLacks(s, Type);
    LeadingLacks(s, Language);
    DistinctAppend(lead, mode);
    if s.language == Custom {
      FrontLacksLanguageCustom(s);
    }
    DistinctAppend(lead + mode, LanguageFields(s));
  }

  /** The separator rule: `separator_type` is `single_character` exactly for a
      custom separator, and the literal separator travels only then. */
  lemma EncodeSeparator(s: Settings)
    ensures Lookup(EncodeRequest(s), SeparatorType)
            == Some(if s.separator == Custom then "single_character" else s.separator)
    ensures HasKey(EncodeRequest(s), UserDefinedSeparator) <==> s.separator == Custom
    ensures s.separator == Custom ==>
              Lookup(EncodeRequest(s), UserDefinedSeparator) == Some(s.customSeparator)
  {
    LookupChoice(s, 9);
    LookupCustomSeparator(s);
  }

  /** The language rule: `language` always travels; `languageCustom` travels
      exactly when the language is `custom`. */
  lemma EncodeLanguage(s: Settings)
    ensures Lookup(EncodeRequest(s), Language) == Some(s.language)
    ensures HasKey(EncodeRequest(s), LanguageCustom) <==> s.language == Custom
    ensures s.language == Custom ==>
              Lookup(EncodeRequest(s), LanguageCustom) == Some(s.customLanguage)
  {
    LookupMode(s, 2);
    LookupCustomLanguage(s);
  }

  /** The discriminant rule: `type` is `passphrase` exactly when the toggle is
      on, and `password` otherwise. */
  lemma EncodeType(s: Settings)
    ensures Lookup(EncodeRequest(s), Type) == Some(TypeValue(s.passphraseToggle))
    ensures Lookup(EncodeRequest(s), Type) == Some("passphrase") <==> s.passphraseToggle
  {
    LookupMode(s, 1);
  }

  /** Every checkbox travels as `"true"` or `"false"`. */
  lemma EncodeCheckboxes(s: Settings)
    ensures Lookup(EncodeRequest(s), IncludeUppercase) == Some(JsBoolText(s.includeUppercase))
    ensures Lookup(EncodeRequest(s), IncludeDigits) == Some(JsBoolText(s.includeDigits))
    ensures Lookup(EncodeRequest(s), IncludeSpecial) == Some(JsBoolText(s.includeSpecial))
    ensures Lookup(EncodeRequest(s), ExcludeHomoglyphs) == Some(JsBoolText(s.excludeHomoglyphs))
    ensures Lookup(EncodeRequest(s), IncludeNumbers) == Some(JsBoolText(s.includeNumbers))
    ensures Lookup(EncodeRequest(s), IncludeSpecialChars) == Some(JsBoolText(s.includeSpecialChars))
    ensures Lookup(EncodeRequest(s), Capitalize) == Some(JsBoolText(s.capitalizeWords))
  {
    LookupChoice(s, 1);
    LookupChoice(s, 2);
    LookupChoice(s, 3);
    LookupChoice(s, 4);
    LookupChoice(s, 5);
    LookupChoice(s, 6);
    LookupChoice(s, 7);
  }

  /** Every slider value travels unchanged. */
  lemma EncodeSliders(s: Settings)
    ensures Lookup(EncodeRequest(s), Length) == Some(s.length)
    ensures Lookup(EncodeRequest(s), WordCount) == Some(s.wordCount)
    ensures Lookup(EncodeRequest(s), MaxWordLength) == Some(s.maxWordLength)
  {
    LookupChoice(s, 0);
    LookupChoice(s, 8);
    LookupMode(s, 0);
  }
}

=== FILE: request_handler.dfy ===
/** The server side of `POST generate-password`: reading the request form,
    choosing the generator, building the character set and retrying while the
    candidate appears in a breach list. Randomness, the breach check, the word
    list download, the passphrase generator and the homoglyph filter are
    external services passed in as `Services`. */
module RequestHandler {
  import opened Wrappers
  import opened Text
  import opened Decimal
  import opened FormData

  /** Python's `str(b)` for a bool. */
  function PyBoolText(b: bool): string {
    if b then "True" else "False"
  }

  /** `get_bool`: the field (or `str(default)` when absent), lower-cased,
      compared with `"true"`. */
  function GetBool(form: Fields, field: FieldName, default: bool): (r: bool)
    ensures !HasKey(form, field) ==> r == default
    ensures HasKey(form, field) ==> (r <==> Lower(Lookup(form, field).value) == "true")
  {
    assert Lower("True") == "true";
    assert Lower("False")[0] == 'f';
    Lower(Get(form, field, PyBoolText(default))) == "true"
  }

  /** A case variant of `true`: four letters, each `t`/`T`, `r`/`R`, ... */
  predicate SpellsTrue(v: string) {
    |v| == 4 && forall i :: 0 <= i < 4 ==> v[i] == "true"[i] || v[i] == "TRUE"[i]
  }

  /** `get_bool` accepts exactly the case variants of `true`. */
  lemma GetBoolSpellsTrue(form: Fields, field: FieldName, default: bool)
    requires HasKey(form, field)
    ensures GetBool(form, field, default) <==> SpellsTrue(Lookup(form, field).value)
  {
    var v := Lookup(form, field).value;
    if SpellsTrue(v) {
      assert Lower(v) == "true" by {
        forall i | 0 <= i < 4 ensures Lower(v)[i] == "true"[i] {
          assert LowerChar(v[i]) == "true"[i];
        }
      }
    }
    if Lower(v) == "true" {
      forall i | 0 <= i < 4 ensures v[i] == "true"[i] || v[i] == "TRUE"[i] {
        assert LowerChar(v[i]) == "true"[i];
      }
    }
  }

  /** The configured fallbacks for fields the request leaves out. */
  datatype Config = Config(
    ppLanguage: string,
    ppLanguageCustom: string,
    pwLength: int,
    pwIncludeUppercase: bool,
    pwIncludeDigits: bool,
    pwIncludeSpecial: bool,
    pwExcludeHomoglyphs: bool,
    ppCapitalize: bool,
    ppSeparatorType: string,
    ppMaxWordLength: int,
    ppUserDefinedSeparator: string,
    ppWordCount: int,
    ppIncludeNumbers: bool,
    ppIncludeSpecialChars: bool,
    specialCharacters: string)

  /** The options the handler reads before doing anything else. */
  datatype Options = Options(
    language: string,
    languageCustom: string,
    length: int,
    includeUppercase: bool,
    includeDigits: bool,
    includeSpecial: bool,
    excludeHomoglyphs: bool,
    generateType: string,
    capitalize: bool,
    separatorType: string,
    maxWordLength: int,
    userDefinedSeparator: string,
    wordCount: int,
    includeNumbers: bool,
    includeSpecialChars: bool)

  /** What the handler raises instead of returning. */
  datatype PyError =
    | ValueError(field: FieldName)   // `int()` of a field that is not an integer
    | IndexError                  // `secrets.choice` on an empty character set

  /** `int(request_form.get(field, default))` with an integer default. */
  function GetInt(form: Fields, field: FieldName, default: int): (r: Option<int>)
    ensures !HasKey(form, field) ==> r == Some(default)
    ensures HasKey(form, field) ==> r == ParseInt(Lookup(form, field).value)
  {
    if HasKey(form, field) then ParseInt(Lookup(form, field).value) else Some(default)
  }

  /** Reads every option; the integer fields are converted in source order
      (`length`, `max_word_length`, `word_count`) and the first one that is not
      an integer raises `ValueError`. */
  function ReadOptions(form: Fields, cfg: Config): (r: Result<Options, PyError>)
    ensures r.Success? <==>
      GetInt(form, Length, cfg.pwLength).Some?
      && GetInt(form, MaxWordLength, cfg.ppMaxWordLength).Some?
      && GetInt(form, WordCount, cfg.ppWordCount).Some?
    ensures GetInt(form, Length, cfg.pwLength).None? ==> r == Failure(ValueError(Length))
    ensures r.Success? ==> r.value.length == GetInt(form, Length, cfg.pwLength).value
  {
    var length := GetInt(form, Length, cfg.pwLength);
    var maxWordLength := GetInt(form, MaxWordLength, cfg.ppMaxWordLength);
    var wordCount := GetInt(form, WordCount, cfg.ppWordCount);
    if length.None? then Failure(ValueError(Length))
    else if maxWordLength.None? then Failure(ValueError(MaxWordLength))
    else if wordCount.None? then Failure(ValueError(WordCount))
    else
      Success(Options(
        language := Get(form, Language, cfg.ppLanguage),
        languageCustom := Get(form, LanguageCustom, cfg.ppLanguageCustom),
        length := length.value,
        includeUppercase := GetBool(form, IncludeUppercase, cfg.pwIncludeUppercase),
        includeDigits := GetBool(form, IncludeDigits, cfg.pwIncludeDigits),
        includeSpecial := GetBool(form, IncludeSpecial, cfg.pwIncludeSpecial),
        excludeHomoglyphs := GetBool(form, ExcludeHomoglyphs, cfg.pwExcludeHomoglyphs),
        generateType := Get(form, Type, "password"),
        capitalize := GetBool(form, Capitalize, cfg.ppCapitalize),
        separatorType := Get(form, SeparatorType, cfg.ppSeparatorType),
        maxWordLength := maxWordLength.value,
        userDefinedSeparator := Get(form, UserDefinedSeparator, cfg.ppUserDefinedSeparator),
        wordCount := wordCount.value,
        includeNumbers := GetBool(form, IncludeNumbers, cfg.ppIncludeNumbers),
        includeSpecialChars := GetBool(form, IncludeSpecialChars, cfg.ppIncludeSpecialChars)))
  }

  /** Once the three integers parse, every option is the field's reading. */
  lemma ReadOptionsFields(form: Fields, cfg: Config, length: int, maxWordLength: int, wordCount: int)
    requires GetInt(form, Length, cfg.pwLength) == Some(length)
    requires GetInt(form, MaxWordLength, cfg.ppMaxWordLength) == Some(maxWordLength)
    requires GetInt(form, WordCount, cfg.ppWordCount) == Some(wordCount)
    ensures ReadOptions(form, cfg) == Success(Options(
        Get(form, Language, cfg.ppLanguage),
        Get(form, LanguageCustom, cfg.ppLanguageCustom),
        length,
        GetBool(form, IncludeUppercase, cfg.pwIncludeUppercase),
        GetBool(form, IncludeDigits, cfg.pwIncludeDigits),
        GetBool(form, IncludeSpecial, cfg.pwIncludeSpecial),
        GetBool(form, ExcludeHomoglyphs, cfg.pwExcludeHomoglyphs),
        Get(form, Type, "password"),
        GetBool(form, Capitalize, cfg.ppCapitalize),
        Get(form, SeparatorType, cfg.ppSeparatorType),
        maxWordLength,
        Get(form, UserDefinedSeparator, cfg.ppUserDefinedSeparator),
        wordCount,
        GetBool(form, IncludeNumbers, cfg.ppIncludeNumbers),
        GetBool(form, IncludeSpecialChars, cfg.ppIncludeSpecialChars)))
  {
  }

  /** A downloaded custom word list. */
  type WordList = seq<string>

  /** The word lists that ship with the generator. */
  const BuiltinLanguages: seq<string> := ["en", "fi", "fr", "it"]

  /** The language and word list the passphrase generator receives, or the
      text of the exception the word list download raised. A language outside
      the built-in four downloads `languageCustom` and becomes `custom`. */
  function ResolveLanguage(o: Options, fetch: string -> Result<WordList, string>)
    : (r: Result<(string, Option<WordList>), string>)
    ensures o.language in BuiltinLanguages ==> r == Success((o.language, None))
    ensures o.language !in BuiltinLanguages ==>
              (r.Success? <==> fetch(o.languageCustom).Success?)
    ensures o.language !in BuiltinLanguages && r.Success? ==>
              r.value == ("custom", Some(fetch(o.languageCustom).value))
    ensures o.language !in BuiltinLanguages && r.Failure? ==>
              r.error == fetch(o.languageCustom).error
  {
    if o.language in BuiltinLanguages then Success((o.language, None))
    else
      match fetch(o.languageCustom)
      case Failure(e) => Failure(e)
      case Success(words) => Success(("custom", Some(words)))
  }

  const AsciiLowercase := "abcdefghijklmnopqrstuvwxyz"
  const AsciiUppercase := "ABCDEFGHIJKLMNOPQRSTUVWXYZ"
  const AsciiDigits := "0123456789"

  /** The password alphabet: lower-case letters, then upper-case letters,
      digits and the configured special characters when their flags are set,
      each block passed through the homoglyph filter when exclusion is on. */
  function Charset(o: Options, special: string, filter: string -> string): (r: string)
    ensures var lower := Block(o, filter, AsciiLowercase);
      var upper := if o.includeUppercase then Block(o, filter, AsciiUppercase) else "";
      var digits := if o.includeDigits then Block(o, filter, AsciiDigits) else "";
      var specials := if o.includeSpecial then Block(o, filter, special) else "";
      && |r| == |lower| + |upper| + |digits| + |specials|
      && r[..|lower|] == lower
      && r[|lower|..|lower| + |upper|] == upper
      && r[|lower| + |upper|..|lower| + |upper| + |digits|] == digits
      && r[|r| - |specials|..] == specials
  {
    var lower := Block(o, filter, AsciiLowercase);
    var upper := if o.includeUppercase then Block(o, filter, AsciiUppercase) else "";
    var digits := if o.includeDigits then Block(o, filter, AsciiDigits) else "";
    var specials := if o.includeSpecial then Block(o, filter, special) else "";
    var r := lower + upper + digits + specials;
    ConcatSlices(r, lower, upper, digits, specials);
    r
  }

  /** Where each of four concatenated pieces sits in the whole. A proof
      step only, kept separate to keep the verifier's cost down. */
  lemma ConcatSlices(r: string, a: string, b: string, c: string, d: string)
    requires r == a + b + c + d
    ensures |r| == |a| + |b| + |c| + |d|
    ensures r[..|a|] == a && r[|a|..|a| + |b|] == b
    ensures r[|a| + |b|..|a| + |b| + |c|] == c && r[|r| - |d|..] == d
  {
    assert r[..|a|] == a;
    assert r[|a|..|a| + |b|] == b;
    assert r[|a| + |b|..|a| + |b| + |c|] == c;
    assert r[|r| - |d|..] == d;
  }

  /** One block of the alphabet, passed through the homoglyph filter when
      exclusion is on. */
  function Block(o: Options, filter: string -> string, chars: string): string {
    if o.excludeHomoglyphs then filter(chars) else chars
  }

  /** Without homoglyph exclusion the blocks appear whole and in order:
      lower case at the front, then upper case, digits, special characters. */
  lemma CharsetLayout(o: Options, special: string, filter: string -> string)
    requires !o.excludeHomoglyphs
    ensures var chars := Charset(o, special, filter);
      var upper := if o.includeUppercase then 26 else 0;
      var digits := if o.includeDigits then 10 else 0;
      && |chars| == 26 + upper + digits + (if o.includeSpecial then |special| else 0)
      && chars[..26] == AsciiLowercase
      && (o.includeUppercase ==> chars[26..52] == AsciiUppercase)
      && (o.includeDigits ==> chars[26 + upper..36 + upper] == AsciiDigits)
      && (o.includeSpecial ==> chars[26 + upper + digits..] == special)
  {
  }

  /** Membership in a run of consecutive code points is a range test. */
  lemma RunMembership(run: string, first: char, c: char)
    requires forall i :: 0 <= i < |run| ==> run[i] as int == first as int + i
    ensures c in run <==> first as int <= c as int < first as int + |run|
  {
    if first as int <= c as int < first as int + |run| {
      assert run[c as int - first as int] == c;
    }
  }

  /** Without homoglyph exclusion a character is usable exactly when it is a
      lower-case letter or belongs to an enabled block. */
  lemma CharsetMembership(o: Options, special: string, filter: string -> string, c: char)
    requires !o.excludeHomoglyphs
    ensures c in Charset(o, special, filter) <==>
      || 'a' <= c <= 'z'
      || (o.includeUppercase && 'A' <= c <= 'Z')
      || (o.includeDigits && '0' <= c <= '9')
      || (o.includeSpecial && c in special)
  {
    RunMembership(AsciiLowercase, 'a', c);
    RunMembership(AsciiUppercase, 'A', c);
    RunMembership(AsciiDigits, '0', c);
    var chars := Charset(o, special, filter);
    var upper := if o.includeUppercase then AsciiUppercase else "";
    var digits := if o.includeDigits then AsciiDigits else "";
    var spec := if o.includeSpecial then special else "";
    assert chars == AsciiLowercase + upper + digits + spec;
  }

  /** One password candidate: `length` draws from the alphabet (none when the
      length is not positive). `draw(attempt, i)` is the index
      `secrets.choice` picks for position `i` of candidate `attempt`. */
  function PasswordCandidate(chars: string, length: int, draw: (nat, nat) -> nat, attempt: nat)
    : (p: string)
    requires |chars| > 0 || length <= 0
    ensures |p| == (if length < 0 then 0 else length)
    ensures forall i :: 0 <= i < |p| ==> p[i] in chars
  {
    var n := if length < 0 then 0 else length;
    seq(n, i requires 0 <= i < n => chars[draw(attempt, i) % |chars|])
  }

  /** The successive password candidates of one request. */
  function PasswordCandidates(chars: string, length: int, draw: (nat, nat) -> nat): nat -> string
    requires |chars| > 0 || length <= 0
  {
    (k: nat) => PasswordCandidate(chars, length, draw, k)
  }

  /** The handler gives up replacing breached candidates after this many. */
  const MaxRegenerations: nat := 10

  /** The candidate the retry loop settles on and how many times it
      regenerated; it made `regenerations + 1` breach checks. */
  datatype Retry = Retry(password: string, regenerations: nat)

  /** The retry loop from check number `attempt` on: candidate `k` is checked
      by check `k`; the loop stops at the first clean candidate or after
      `MaxRegenerations` regenerations. */
  function RetryFrom(candidate: nat -> string, pwned: (nat, string) -> bool, attempt: nat): (r: Retry)
    requires attempt <= MaxRegenerations
    decreases MaxRegenerations - attempt
    ensures attempt <= r.regenerations <= MaxRegenerations
    ensures r.password == candidate(r.regenerations)
    ensures forall k :: attempt <= k < r.regenerations ==> pwned(k, candidate(k))
    ensures !pwned(r.regenerations, r.password) || r.regenerations == MaxRegenerations
  {
    if !pwned(attempt, candidate(attempt)) || attempt >= MaxRegenerations then
      Retry(candidate(attempt), attempt)
    else
      RetryFrom(candidate, pwned, attempt + 1)
  }

  /** The `while True` loop as written: check, stop when clean or when
      `attempt >= 10`, otherwise regenerate. */
  method RetryLoop(candidate: nat -> string, pwned: (nat, string) -> bool)
    returns (password: string, regenerations: nat, checks: nat)
    ensures regenerations <= MaxRegenerations && checks == regenerations + 1
    ensures password == candidate(regenerations)
    ensures forall k :: 0 <= k < regenerations ==> pwned(k, candidate(k))
    ensures !pwned(regenerations, password) || regenerations == MaxRegenerations
    ensures Retry(password, regenerations) == RetryFrom(candidate, pwned, 0)
  {
    var attempt: nat := 0;
    password := candidate(0);
    checks := 0;
    while true
      invariant attempt <= MaxRegenerations
      invariant password == candidate(attempt)
      invariant checks == attempt
      invariant forall k :: 0 <= k < attempt ==> pwned(k, candidate(k))
      invariant RetryFrom(candidate, pwned, attempt) == RetryFrom(candidate, pwned, 0)
      decreases MaxRegenerations - attempt
    {
      var isPwned := pwned(attempt, password);
      checks := checks + 1;
      if !isPwned || attempt >= MaxRegenerations {
        break;
      }
      password := candidate(attempt + 1);
      attempt := attempt + 1;
    }
    regenerations := attempt;
  }

  /** The loop returns the first candidate the breach check passes. */
  lemma RetryFirstClean(candidate: nat -> string, pwned: (nat, string) -> bool, j: nat)
    requires j <= MaxRegenerations && !pwned(j, candidate(j))
    requires forall k :: 0 <= k < j ==> pwned(k, candidate(k))
    ensures RetryFrom(candidate, pwned, 0) == Retry(candidate(j), j)
  {
  }

  /** When every check reports a breach the loop returns the eleventh
      candidate after eleven checks. */
  lemma RetryAllPwned(candidate: nat -> string, pwned: (nat, string) -> bool)
    requires forall k :: 0 <= k <= MaxRegenerations ==> pwned(k, candidate(k))
    ensures RetryFrom(candidate, pwned, 0) == Retry(candidate(MaxRegenerations), MaxRegenerations)
  {
  }

  /** The arguments `generate_passphrase` is called with. */
  datatype PassphraseArgs = PassphraseArgs(
    wordCount: int,
    capitalize: bool,
    separatorType: string,
    maxWordLength: int,
    userDefinedSeparator: string,
    includeNumbers: bool,
    includeSpecialChars: bool,
    language: string,
    customWordList: Option<WordList>)

  /** The successive passphrase candidates of one request. */
  function PassphraseCandidates(generate: (PassphraseArgs, nat) -> string, args: PassphraseArgs)
    : nat -> string
  {
    (k: nat) => generate(args, k)
  }

  /** The external services the handler awaits or calls. */
  datatype Services = Services(
    fetchWordlist: string -> Result<WordList, string>,   // `fetch_custom_wordlist`; Failure carries `str(e)`
    filterHomoglyphs: string -> string,                  // `filter_homoglyphs(chars, True)`
    generatePassphrase: (PassphraseArgs, nat) -> string, // the `k`-th `generate_passphrase` call
    draw: (nat, nat) -> nat,                             // `secrets.choice` index for (candidate, position)
    pwned: (nat, string) -> bool)                        // the `k`-th `check_password_pwned` answer

  /** `calculate_entropy` is external: the reply records which string it was
      computed for, or the literal 0 of the error reply. */
  datatype Entropy = Zero | EntropyOf(password: string)

  /** The handler's result: a raised exception or the JSON dictionary. */
  datatype Outcome = Raised(error: PyError) | Reply(password: string, entropy: Entropy)

  const FetchErrorPrefix := "Error: Failed to fetch custom word list due to "

  /** The generation step once the options are read and the language
      resolved: the passphrase generator when `type` is `passphrase`, the
      password generator for any other value. */
  function Generate(o: Options, resolved: (string, Option<WordList>), cfg: Config, sv: Services)
    : (r: Outcome)
    ensures r.Reply? ==> r.entropy == EntropyOf(r.password)
    ensures r.Raised? <==>
      o.generateType != "passphrase" && o.length > 0
      && |Charset(o, cfg.specialCharacters, sv.filterHomoglyphs)| == 0
  {
    var chars := Charset(o, cfg.specialCharacters, sv.filterHomoglyphs);
    if o.generateType == "passphrase" then
      var args := PassphraseArgs(o.wordCount, o.capitalize, o.separatorType, o.maxWordLength,
                                 o.userDefinedSeparator, o.includeNumbers, o.includeSpecialChars,
                                 resolved.0, resolved.1);
      var t := RetryFrom(PassphraseCandidates(sv.generatePassphrase, args), sv.pwned, 0);
      Reply(t.password, EntropyOf(t.password))
    else if |chars| == 0 && o.length > 0 then
      Raised(IndexError)
    else
      var t := RetryFrom(PasswordCandidates(chars, o.length, sv.draw), sv.pwned, 0);
      Reply(t.password, EntropyOf(t.password))
  }

  /** The error reply for a failed word list download. */
  function FetchErrorReply(e: string): (r: Outcome)
    ensures r.Reply? && r.entropy == Zero && StartsWith(r.password, FetchErrorPrefix)
    ensures r.password[|FetchErrorPrefix|..] == e
  {
    var text := FetchErrorPrefix + e;
    assert text[..|FetchErrorPrefix|] == FetchErrorPrefix;
    Reply(text, Zero)
  }

  /** `handle_generate_password_request`. */
  function Handle(form: Fields, cfg: Config, sv: Services): (r: Outcome)
    ensures ReadOptions(form, cfg).Failure? ==> r == Raised(ReadOptions(form, cfg).error)
    ensures r.Reply? && r.entropy == Zero ==> StartsWith(r.password, FetchErrorPrefix)
    ensures r.Reply? && r.entropy != Zero ==> r.entropy == EntropyOf(r.password)
  {
    match ReadOptions(form, cfg)
    case Failure(e) => Raised(e)
    case Success(o) =>
      match ResolveLanguage(o, sv.fetchWordlist)
      case Failure(e) => FetchErrorReply(e)
      case Success(resolved) => Generate(o, resolved, cfg, sv)
  }

  /** A missing `type` field reads as `password`; only the exact value
      `passphrase` selects the passphrase generator. */
  lemma TypeDefaultsToPassword(form: Fields, cfg: Config)
    ensures ReadOptions(form, cfg).Success? && !HasKey(form, Type) ==>
              ReadOptions(form, cfg).value.generateType == "password"
    ensures ReadOptions(form, cfg).Success? && HasKey(form, Type) ==>
              ReadOptions(form, cfg).value.generateType == Lookup(form, Type).value
  {
  }

  /** A language outside the built-in four whose download fails yields the
      error reply with entropy 0 in either mode, and nothing is generated. */
  lemma HandleFetchFailure(form: Fields, cfg: Config, sv: Services)
    ensures var read := ReadOptions(form, cfg);
      read.Success? && read.value.language !in BuiltinLanguages
      && sv.fetchWordlist(read.value.languageCustom).Failure?
      ==> Handle(form, cfg, sv) == FetchErrorReply(sv.fetchWordlist(read.value.languageCustom).error)
  {
  }

  /** Which generation step the handler ends in: a built-in language is
      passed on with no word list; any other language whose download
      succeeds becomes `custom` with the downloaded list. */
  lemma HandleGenerates(form: Fields, cfg: Config, sv: Services)
    ensures var read := ReadOptions(form, cfg);
      read.Success? && read.value.language in BuiltinLanguages
      ==> Handle(form, cfg, sv) == Generate(read.value, (read.value.language, None), cfg, sv)
    ensures var read := ReadOptions(form, cfg);
      read.Success? && read.value.language !in BuiltinLanguages
      && sv.fetchWordlist(read.value.languageCustom).Success?
      ==> Handle(form, cfg, sv)
          == Generate(read.value, ("custom", Some(sv.fetchWordlist(read.value.languageCustom).value)), cfg, sv)
  {
  }

  /** Password mode: the reply is one of the first eleven candidates, each
      `length` characters drawn from the alphabet, every earlier candidate
      having been reported breached. */
  lemma GeneratePasswordMode(o: Options, resolved: (string, Option<WordList>), cfg: Config, sv: Services)
    requires o.generateType != "passphrase"
    requires |Charset(o, cfg.specialCharacters, sv.filterHomoglyphs)| > 0 || o.length <= 0
    ensures var chars := Charset(o, cfg.specialCharacters, sv.filterHomoglyphs);
      var r := Generate(o, resolved, cfg, sv);
      && r.Reply?
      && |r.password| == (if o.length < 0 then 0 else o.length)
      && (forall i :: 0 <= i < |r.password| ==> r.password[i] in chars)
      && exists k :: 0 <= k <= MaxRegenerations
           && r.password == PasswordCandidate(chars, o.length, sv.draw, k)
           && (forall j :: 0 <= j < k ==> sv.pwned(j, PasswordCandidate(chars, o.length, sv.draw, j)))
  {
    var chars := Charset(o, cfg.specialCharacters, sv.filterHomoglyphs);
    PasswordRetry(chars, o.length, sv.draw, sv.pwned);
  }

  /** The retry loop over password candidates settles on one of the first
      eleven, every earlier one having been reported breached. */
  lemma PasswordRetry(chars: string, length: int, draw: (nat, nat) -> nat, pwned: (nat, string) -> bool)
    requires |chars| > 0 || length <= 0
    ensures var t := RetryFrom(PasswordCandidates(chars, length, draw), pwned, 0);
      exists k :: 0 <= k <= MaxRegenerations
        && t.password == PasswordCandidate(chars, length, draw, k)
        && (forall j :: 0 <= j < k ==> pwned(j, PasswordCandidate(chars, length, draw, j)))
  {
    var candidate := PasswordCandidates(chars, length, draw);
    var t := RetryFrom(candidate, pwned, 0);
    var k := t.regenerations;
    assert forall j :: 0 <= j < k ==> candidate(j) == PasswordCandidate(chars, length, draw, j);
    assert 0 <= k <= MaxRegenerations
           && t.password == PasswordCandidate(chars, length, draw, k)
           && (forall j :: 0 <= j < k ==> pwned(j, PasswordCandidate(chars, length, draw, j)));
  }

  /** Passphrase mode: the reply is one of the first eleven results of the
      passphrase generator, called with the request's options and the
      resolved language and word list. */
  lemma GeneratePassphraseMode(o: Options, resolved: (string, Option<WordList>), cfg: Config, sv: Services)
    requires o.generateType == "passphrase"
    ensures var args := PassphraseArgs(o.wordCount, o.capitalize, o.separatorType, o.maxWordLength,
                                       o.userDefinedSeparator, o.includeNumbers, o.includeSpecialChars,
                                       resolved.0, resolved.1);
      var r := Generate(o, resolved, cfg, sv);
      && r.Reply?
      && exists k :: 0 <= k <= MaxRegenerations
           && r.password == sv.generatePassphrase(args, k)
           && (forall j :: 0 <= j < k ==> sv.pwned(j, sv.generatePassphrase(args, j)))
  {
    var args := PassphraseArgs(o.wordCount, o.capitalize, o.separatorType, o.maxWordLength,
                               o.userDefinedSeparator, o.includeNumbers, o.includeSpecialChars,
                               resolved.0, resolved.1);
    var candidate := PassphraseCandidates(sv.generatePassphrase, args);
    var t := RetryFrom(candidate, sv.pwned, 0);
    var k := t.regenerations;
    assert Generate(o, resolved, cfg, sv).password == candidate(k);
    assert forall j :: 0 <= j < k ==> candidate(j) == sv.generatePassphrase(args, j);
  }
}

=== FILE: response_rendering.dfy ===
/** How `generatePassword` renders the decoded response body: a `passwords`
    array fills the five batch slots, anything else shows `password` in the
    main field and starts the scramble animation. */
module ResponseRendering {
  import opened Wrappers
  import opened Scramble

  /** The page markup provides the slots `.multipw0` to `.multipw4`. */
  const SlotCount: nat := 5

  /** What the page shows: the main password field and the batch slots. */
  datatype Page = Page(display: string, slots: seq<string>)

  /** The decoded response body: `passwords` is `Some` exactly when the body
      carries a `passwords` array (an array is truthy even when empty);
      `password` is `None` when that property is undefined. */
  datatype Payload = Payload(passwords: Option<seq<string>>, password: Option<string>)

  /** The page after rendering and, on the single-password branch, the string
      the scramble animation is started for. */
  datatype Rendered = Rendered(page: Page, animate: Option<string>)

  /** `forEach` over the batch from index `i` on: entry `i` goes to slot `i`
      while `i < 5`; later entries are skipped. */
  function FillSlots(slots: seq<string>, items: seq<string>, i: nat): (r: seq<string>)
    requires |slots| == SlotCount && i <= |items|
    decreases |items| - i
    ensures |r| == SlotCount
    ensures forall j :: 0 <= j < SlotCount ==>
              r[j] == if i <= j < |items| then items[j] else slots[j]
  {
    if i == |items| then slots
    else if i < SlotCount then FillSlots(slots[i := items[i]], items, i + 1)
    else FillSlots(slots, items, i + 1)
  }

  /** The response handler of `generatePassword`. */
  function Render(page: Page, payload: Payload): (r: Rendered)
    requires |page.slots| == SlotCount
    ensures |r.page.slots| == SlotCount
    ensures payload.passwords.Some? ==>
              && r.page.display == page.display
              && r.animate.None?
              && forall j :: 0 <= j < SlotCount ==>
                   r.page.slots[j] == if j < |payload.passwords.value| then payload.passwords.value[j]
                                      else page.slots[j]
    ensures payload.passwords.None? ==> r.page.slots == page.slots
    ensures payload.passwords.None? && payload.password.Some? ==>
              r.page.display == payload.password.value && r.animate == payload.password
    ensures payload.passwords.None? && payload.password.None? ==>
              r.page.display == "undefined" && r.animate.None?
  {
    match payload.passwords
    case Some(items) => Rendered(Page(page.display, FillSlots(page.slots, items, 0)), None)
    case None =>
      match payload.password
      // `passwordInput.value = undefined` shows the text "undefined"; the
      // scramble animation then throws on `undefined.length` and the
      // rejection is only logged.
      case None => Rendered(Page("undefined", page.slots), None)
      case Some(p) => Rendered(Page(p, page.slots), Some(p))
  }

  /** A batch of five or more shows exactly its first five entries, in
      order; the rest are dropped. */
  lemma BatchTruncation(page: Page, items: seq<string>, single: Option<string>)
    requires |page.slots| == SlotCount && |items| >= SlotCount
    ensures Render(page, Payload(Some(items), single)).page == Page(page.display, items[..SlotCount])
  {
    var r := Render(page, Payload(Some(items), single));
    assert r.page.slots == items[..SlotCount];
  }

  /** The animation `Render` starts runs on the field it has just written:
      once its timers have all fired, the field shows the rendered password
      again, whatever animations ran before it. */
  lemma RenderThenSettle(page: Page, payload: Payload, sc: Screen, draws: nat -> nat, order: seq<nat>)
    requires |page.slots| == SlotCount && AllValid(sc)
    ensures var r := Render(page, payload);
      r.animate.Some? && IsSchedule(order, |r.animate.value|) ==>
        && r.animate.value == r.page.display
        && TickAll(Launch(sc, r.animate.value, draws), |sc.animations|, order).field == r.page.display
  {
    var r := Render(page, payload);
    if r.animate.Some? && IsSchedule(order, |r.animate.value|) {
      FieldSettles(sc, r.animate.value, draws, order);
    }
  }
}

=== FILE: scramble.dfy ===
/** `scrambleAnimation`: the main field first shows random characters, then
    one timer per position replaces that position with the final character.
    Timers fire in an order chosen by random delays, modelled as an arbitrary
    firing order. */
module Scramble {

  /** The characters `getRandomCharacter` draws from (note the space between
      the braces). */
  const ScrambleCharset: string :=
    "ABCDEFGHIJKLMNOPQRSTUVWXYZabcdefghijklmnopqrstuvwxyz0123456789!@#$%^&*()_+-=[]{ }|;:'\",.<>/?"

  /** `getRandomCharacter`: the character at index `draw` (taken modulo the
      alphabet size, standing for `Math.floor(Math.random() * length)`). */
  function RandomCharacter(draw: nat): (c: char)
    ensures c in ScrambleCharset
  {
    ScrambleCharset[draw % |ScrambleCharset|]
  }

  /** One animation: the final string and the animation's own array of
      displayed characters. */
  datatype Animation = Animation(final: string, scrambled: string)

  predicate Valid(a: Animation) {
    |a.scrambled| == |a.final|
  }

  /** The start of the animation: a mask of the final string's length, each
      character an independent draw; the mask is displayed at once. */
  function Start(final: string, draws: nat -> nat): (a: Animation)
    ensures Valid(a) && a.final == final
    ensures forall i :: 0 <= i < |a.scrambled| ==> a.scrambled[i] in ScrambleCharset
  {
    var mask := seq(|final|, i requires 0 <= i < |final| => RandomCharacter(draws(i)));
    assert forall i :: 0 <= i < |mask| ==> mask[i] == RandomCharacter(draws(i));
    Animation(final, mask)
  }

  /** The timer for `index` fires: that position becomes final and the whole
      array is written to the display (the display afterwards is
      `scrambled`). */
  function Fire(a: Animation, index: nat): (b: Animation)
    requires Valid(a) && index < |a.final|
    ensures Valid(b) && b.final == a.final
    ensures b.scrambled[index] == a.final[index]
    ensures forall i :: 0 <= i < |a.final| && i != index ==> b.scrambled[i] == a.scrambled[i]
  {
    a.(scrambled := a.scrambled[index := a.final[index]])
  }

  /** Positions a sequence of timer firings may name. */
  predicate InRange(order: seq<nat>, n: nat) {
    forall k :: 0 <= k < |order| ==> order[k] < n
  }

  /** Firing the timers in `order`: a position named in `order` shows its
      final character, every other position keeps what it showed. */
  function FireAll(a: Animation, order: seq<nat>): (b: Animation)
    requires Valid(a) && InRange(order, |a.final|)
    decreases |order|
    ensures Valid(b) && b.final == a.final
    ensures forall i :: 0 <= i < |a.final| ==>
              b.scrambled[i] == if i in order then a.final[i] else a.scrambled[i]
  {
    if |order| == 0 then a
    else
      assert forall k :: 0 <= k < |order[1..]| ==> order[1..][k] == order[k + 1];
      assert forall i :: i in order <==> i == order[0] || i in order[1..];
      FireAll(Fire(a, order[0]), order[1..])
  }

  /** A complete schedule: one firing per position, each position once (a
      permutation of the positions). */
  predicate IsSchedule(order: seq<nat>, n: nat) {
    |order| == n && InRange(order, n) && forall i :: 0 <= i < n ==> i in order
  }

  /** While timers are pending every displayed position shows either its
      mask character or its final character, and the length never changes. */
  lemma DisplayBetween(final: string, draws: nat -> nat, fired: seq<nat>)
    requires InRange(fired, |final|)
    ensures var a := Start(final, draws);
      var shown := FireAll(a, fired).scrambled;
      && |shown| == |final|
      && forall i :: 0 <= i < |final| ==> shown[i] == final[i] || shown[i] == a.scrambled[i]
  {
  }

  /** A single animation converges: once every timer has fired, whatever the
      order, the display equals the final string. */
  lemma Converges(final: string, draws: nat -> nat, order: seq<nat>)
    requires IsSchedule(order, |final|)
    ensures FireAll(Start(final, draws), order).scrambled == final
  {
    var b := FireAll(Start(final, draws), order);
    assert forall i :: 0 <= i < |final| ==> b.scrambled[i] == final[i];
  }

  /** The password field and every animation started so far, oldest first.
      Animations are not cancelled: each keeps its own array and its timers
      stay pending. */
  datatype Screen = Screen(field: string, animations: seq<Animation>)

  predicate AllValid(sc: Screen) {
    forall k :: 0 <= k < |sc.animations| ==> Valid(sc.animations[k])
  }

  /** `scrambleAnimation(final)` on the shared field: a new animation whose
      mask is written to the field at once. */
  function Launch(sc: Screen, final: string, draws: nat -> nat): (r: Screen)
    requires AllValid(sc)
    ensures AllValid(r) && |r.animations| == |sc.animations| + 1
    ensures r.animations[..|sc.animations|] == sc.animations
    ensures r.animations[|sc.animations|] == Start(final, draws)
    ensures r.field == Start(final, draws).scrambled
  {
    var a := Start(final, draws);
    var r := Screen(a.scrambled, sc.animations + [a]);
    assert r.animations[..|sc.animations|] == sc.animations;
    r
  }

  /** Timer `index` of animation `id` fires: that animation's array is
      updated and written, whole, to the shared field. */
  function Tick(sc: Screen, id: nat, index: nat): (r: Screen)
    requires AllValid(sc) && id < |sc.animations| && index < |sc.animations[id].final|
    ensures AllValid(r) && |r.animations| == |sc.animations|
    ensures r.animations[id] == Fire(sc.animations[id], index)
    ensures forall k :: 0 <= k < |sc.animations| && k != id ==> r.animations[k] == sc.animations[k]
    ensures r.field == r.animations[id].scrambled
  {
    var b := Fire(sc.animations[id], index);
    Screen(b.scrambled, sc.animations[id := b])
  }

  /** The timers of animation `id` firing in `order`: afterwards the field
      shows that animation's array, and the other animations are untouched. */
  function TickAll(sc: Screen, id: nat, order: seq<nat>): (r: Screen)
    requires AllValid(sc) && id < |sc.animations| && InRange(order, |sc.animations[id].final|)
    decreases |order|
    ensures AllValid(r) && |r.animations| == |sc.animations|
    ensures r.animations[id] == FireAll(sc.animations[id], order)
    ensures forall k :: 0 <= k < |sc.animations| && k != id ==> r.animations[k] == sc.animations[k]
    ensures |order| > 0 ==> r.field == r.animations[id].scrambled
  {
    if |order| == 0 then sc
    else
      var next := Tick(sc, id, order[0]);
      assert forall k :: 0 <= k < |order[1..]| ==> order[1..][k] == order[k + 1];
      TickAll(next, id, order[1..])
  }

  /** With no later animation, the shared field ends on the password: after
      an animation is launched and each of its timers fires once, in any
      order, the field shows the final password. */
  lemma FieldSettles(sc: Screen, final: string, draws: nat -> nat, order: seq<nat>)
    requires AllValid(sc) && IsSchedule(order, |final|)
    ensures TickAll(Launch(sc, final, draws), |sc.animations|, order).field == final
  {
    var launched := Launch(sc, final, draws);
    Converges(final, draws, order);
    if |order| == 0 {
      assert |launched.field| == 0;
    }
  }

  /** Overlapping animations are not guarded. Start an animation for `older`,
      then one for `newer`, and let every timer of the newer one fire, in any
      order: the field shows `newer`. A timer of the older animation that
      fires afterwards writes the older array back, so the field shows the
      older final character at position 0 and no longer shows `newer`. */
  lemma StaleTimerOverwrites(older: string, newer: string, olderDraws: nat -> nat, newerDraws: nat -> nat,
                             order: seq<nat>)
    requires |older| > 0 && |newer| > 0 && older[0] != newer[0]
    requires IsSchedule(order, |newer|)
    ensures var launched := Launch(Launch(Screen("", []), older, olderDraws), newer, newerDraws);
      var settled := TickAll(launched, 1, order);
      var stale := Tick(settled, 0, 0);
      && settled.field == newer
      && stale.field[0] == older[0]
      && stale.field != newer
  {
    var launched := Launch(Launch(Screen("", []), older, olderDraws), newer, newerDraws);
    assert launched.animations[1] == Start(newer, newerDraws);
    assert launched.animations[0] == Start(older, olderDraws);
    Converges(newer, newerDraws, order);
    var settled := TickAll(launched, 1, order);
    assert settled.animations[0] == Start(older, olderDraws);
    var stale := Tick(settled, 0, 0);
    assert stale.field[0] == older[0];
  }
}

=== FILE: seam.dfy ===
/** The client and the server together: what the handler reads out of the
    request the controller builds. */
module Seam {
  import opened Wrappers
  import opened Text
  import opened Decimal
  import opened FormData
  import opened RequestEncoding
  import opened RequestHandler

  /** The server's reading of a checkbox the client wrote with `String(b)`
      gives back `b`, whatever the configured default. */
  lemma CheckboxRead(form: Fields, field: FieldName, b: bool, default: bool)
    requires Lookup(form, field) == Some(JsBoolText(b))
    ensures GetBool(form, field, default) == b
  {
    if !b {
      assert |Lower("false")| == 5;
    } else {
      assert Lower("true") == "true";
    }
  }

  /** Every password checkbox reaches the handler unchanged. */
  lemma PasswordCheckboxesSurvive(s: Settings, cfg: Config)
    ensures var form := EncodeRequest(s);
      && GetBool(form, IncludeUppercase, cfg.pwIncludeUppercase) == s.includeUppercase
      && GetBool(form, IncludeDigits, cfg.pwIncludeDigits) == s.includeDigits
      && GetBool(form, IncludeSpecial, cfg.pwIncludeSpecial) == s.includeSpecial
      && GetBool(form, ExcludeHomoglyphs, cfg.pwExcludeHomoglyphs) == s.excludeHomoglyphs
  {
    var form := EncodeRequest(s);
    EncodeCheckboxes(s);
    CheckboxRead(form, IncludeUppercase, s.includeUppercase, cfg.pwIncludeUppercase);
    CheckboxRead(form, IncludeDigits, s.includeDigits, cfg.pwIncludeDigits);
    CheckboxRead(form, IncludeSpecial, s.includeSpecial, cfg.pwIncludeSpecial);
    CheckboxRead(form, ExcludeHomoglyphs, s.excludeHomoglyphs, cfg.pwExcludeHomoglyphs);
  }

  /** Every passphrase checkbox reaches the handler unchanged. */
  lemma PassphraseCheckboxesSurvive(s: Settings, cfg: Config)
    ensures var form := EncodeRequest(s);
      && GetBool(form, Capitalize, cfg.ppCapitalize) == s.capitalizeWords
      && GetBool(form, IncludeNumbers, cfg.ppIncludeNumbers) == s.includeNumbers
      && GetBool(form, IncludeSpecialChars, cfg.ppIncludeSpecialChars) == s.includeSpecialChars
  {
    var form := EncodeRequest(s);
    EncodeCheckboxes(s);
    CheckboxRead(form, Capitalize, s.capitalizeWords, cfg.ppCapitalize);
    CheckboxRead(form, IncludeNumbers, s.includeNumbers, cfg.ppIncludeNumbers);
    CheckboxRead(form, IncludeSpecialChars, s.includeSpecialChars, cfg.ppIncludeSpecialChars);
  }

  /** The three sliders report canonical decimal text. */
  predicate SlidersShow(s: Settings, length: nat, wordCount: nat, maxWordLength: nat) {
    && s.length == DecimalText(length)
    && s.wordCount == DecimalText(wordCount)
    && s.maxWordLength == DecimalText(maxWordLength)
  }

  /** Slider values written as decimal text are read back as the numbers. */
  lemma SlidersSurvive(s: Settings, cfg: Config, length: nat, wordCount: nat, maxWordLength: nat)
    requires SlidersShow(s, length, wordCount, maxWordLength)
    ensures IntsReadAs(EncodeRequest(s), cfg, length, wordCount, maxWordLength)
  {
    EncodeSliders(s);
    ParseDecimalText(length);
    ParseDecimalText(wordCount);
    ParseDecimalText(maxWordLength);
  }

  /** The options the page means, stated directly from its settings: each
      checkbox and slider as shown, the passphrase toggle as the request
      type, the separator and language selects as chosen, and the typed-in
      separator and language only when their select says `custom` (the
      configured fallbacks otherwise). */
  function Intended(s: Settings, cfg: Config, length: nat, wordCount: nat, maxWordLength: nat): Options {
    Options(
      language := s.language,
      languageCustom := if s.language == Custom then s.customLanguage else cfg.ppLanguageCustom,
      length := length,
      includeUppercase := s.includeUppercase,
      includeDigits := s.includeDigits,
      includeSpecial := s.includeSpecial,
      excludeHomoglyphs := s.excludeHomoglyphs,
      generateType := if s.passphraseToggle then "passphrase" else "password",
      capitalize := s.capitalizeWords,
      separatorType := if s.separator == Custom then "single_character" else s.separator,
      maxWordLength := maxWordLength,
      userDefinedSeparator := if s.separator == Custom then s.customSeparator else cfg.ppUserDefinedSeparator,
      wordCount := wordCount,
      includeNumbers := s.includeNumbers,
      includeSpecialChars := s.includeSpecialChars)
  }

  /** The text fields the handler reads with `.get`. */
  lemma TextFieldsSurvive(s: Settings, cfg: Config)
    ensures TextsReadAs(EncodeRequest(s), s, cfg)
  {
    var form := EncodeRequest(s);
    assert Get(form, Language, cfg.ppLanguage) == s.language
        && Get(form, LanguageCustom, cfg.ppLanguageCustom)
           == (if s.language == Custom then s.customLanguage else cfg.ppLanguageCustom) by {
      EncodeLanguage(s);
    }
    assert Get(form, Type, "password") == (if s.passphraseToggle then "passphrase" else "password") by {
      EncodeType(s);
    }
    assert Get(form, SeparatorType, cfg.ppSeparatorType)
           == (if s.separator == Custom then "single_character" else s.separator)
        && Get(form, UserDefinedSeparator, cfg.ppUserDefinedSeparator)
           == (if s.separator == Custom then s.customSeparator else cfg.ppUserDefinedSeparator) by {
      EncodeSeparator(s);
    }
  }

  /** The handler's integer readings of a body carrying `s`. */
  predicate IntsReadAs(form: Fields, cfg: Config, length: nat, wordCount: nat, maxWordLength: nat) {
    && GetInt(form, Length, cfg.pwLength) == Some(length)
    && GetInt(form, MaxWordLength, cfg.ppMaxWordLength) == Some(maxWordLength)
    && GetInt(form, WordCount, cfg.ppWordCount) == Some(wordCount)
  }

  /** The handler's text readings of a body carrying `s`. */
  predicate TextsReadAs(form: Fields, s: Settings, cfg: Config) {
    && Get(form, Language, cfg.ppLanguage) == s.language
    && Get(form, LanguageCustom, cfg.ppLanguageCustom)
       == (if s.language == Custom then s.customLanguage else cfg.ppLanguageCustom)
    && Get(form, Type, "password") == (if s.passphraseToggle then "passphrase" else "password")
    && Get(form, SeparatorType, cfg.ppSeparatorType)
       == (if s.separator == Custom then "single_character" else s.separator)
    && Get(form, UserDefinedSeparator, cfg.ppUserDefinedSeparator)
       == (if s.separator == Custom then s.customSeparator else cfg.ppUserDefinedSeparator)
  }

  /** The handler's checkbox readings of a body carrying `s`. */
  predicate ChecksReadAs(form: Fields, s: Settings, cfg: Config) {
    && GetBool(form, IncludeUppercase, cfg.pwIncludeUppercase) == s.includeUppercase
    && GetBool(form, IncludeDigits, cfg.pwIncludeDigits) == s.includeDigits
    && GetBool(form, IncludeSpecial, cfg.pwIncludeSpecial) == s.includeSpecial
    && GetBool(form, ExcludeHomoglyphs, cfg.pwExcludeHomoglyphs) == s.excludeHomoglyphs
    && GetBool(form, Capitalize, cfg.ppCapitalize) == s.capitalizeWords
    && GetBool(form, IncludeNumbers, cfg.ppIncludeNumbers) == s.includeNumbers
    && GetBool(form, IncludeSpecialChars, cfg.ppIncludeSpecialChars) == s.includeSpecialChars
  }

  /** Every checkbox the page shows reaches the handler unchanged. */
  lemma CheckboxesSurvive(s: Settings, cfg: Config)
    ensures ChecksReadAs(EncodeRequest(s), s, cfg)
  {
    PasswordCheckboxesSurvive(s, cfg);
    PassphraseCheckboxesSurvive(s, cfg);
  }

  /** Field readings as the page means them make up the intended options. */
  lemma ReadsIntended(form: Fields, s: Settings, cfg: Config, length: nat, wordCount: nat, maxWordLength: nat)
    requires IntsReadAs(form, cfg, length, wordCount, maxWordLength)
    requires TextsReadAs(form, s, cfg) && ChecksReadAs(form, s, cfg)
    ensures ReadOptions(form, cfg) == Success(Intended(s, cfg, length, wordCount, maxWordLength))
  {
    ReadOptionsFields(form, cfg, length, maxWordLength, wordCount);
  }

  /** The request round trip: when the sliders report decimal text, the
      handler reads exactly the options the page means. */
  lemma RequestRoundTrip(s: Settings, cfg: Config, length: nat, wordCount: nat, maxWordLength: nat)
    requires SlidersShow(s, length, wordCount, maxWordLength)
    ensures ReadOptions(EncodeRequest(s), cfg) == Success(Intended(s, cfg, length, wordCount, maxWordLength))
  {
    var form := EncodeRequest(s);
    SlidersSurvive(s, cfg, length, wordCount, maxWordLength);
    TextFieldsSurvive(s, cfg);
    CheckboxesSurvive(s, cfg);
    ReadsIntended(form, s, cfg, length, wordCount, maxWordLength);
  }

  /** The passphrase toggle alone decides which generator runs. */
  lemma ToggleSelectsGenerator(s: Settings, cfg: Config, length: nat, wordCount: nat, maxWordLength: nat)
    requires SlidersShow(s, length, wordCount, maxWordLength)
    ensures ReadOptions(EncodeRequest(s), cfg).Success?
    ensures ReadOptions(EncodeRequest(s), cfg).value.generateType == "passphrase" <==> s.passphraseToggle
  {
    RequestRoundTrip(s, cfg, length, wordCount, maxWordLength);
  }

  /** A custom language on the page is the word list the handler downloads,
      and the passphrase generator is told `custom`; a failed download is
      passed on as it is. */
  lemma CustomLanguageFetched(s: Settings, cfg: Config, length: nat, wordCount: nat, maxWordLength: nat,
                              fetch: string -> Result<WordList, string>)
    requires s.language == Custom
    ensures ResolveLanguage(Intended(s, cfg, length, wordCount, maxWordLength), fetch)
            == match fetch(s.customLanguage)
               case Failure(e) => Failure(e)
               case Success(words) => Success((Custom, Some(words)))
  {
    assert Custom !in BuiltinLanguages by {
      assert |Custom| == 6;
    }
  }
}

=== FILE: settings_store.dfy ===
/** `saveSettings` and `loadSettings`: the preference snapshot kept in the
    `pwgen-settings` cookie as JSON. JSON itself is external: a `Codec`
    pairs an encoder with a decoder that may fail. */
module SettingsStore {
  import opened Wrappers
  import opened Text
  import opened RequestEncoding
  import opened Decimal
  import opened CookieJar

  const CookieName := "pwgen-settings"

  /** What the settings entry of the cookie string starts with. */
  const SettingsPrefix := "pwgen-settings="

  /** The shape of the prefix, stated once so that proofs need not unfold
      the string literals; it models nothing of its own. */
  lemma SettingsPrefixShape()
    ensures SettingsPrefix == CookieName + "=" && |SettingsPrefix| == 15
    ensures |CookieName| > 0 && NoChar(CookieName, '=') && NoChar(CookieName, ';')
  {
  }

  /** The attributes of a save: whole site, one year, same-site only. */
  const SaveAttributes: seq<string> := ["path=/", "max-age=31536000", "samesite=strict"]

  /** The attributes of a clear: whole site, already expired. */
  const ClearAttributes: seq<string> := ["path=/", "max-age=-1"]

  /** `pwgen-settings=<value>;<attributes>` as assigned to `document.cookie`. */
  function Assignment(value: string, attributes: seq<string>): string {
    CookieName + "=" + value + ";" + Join(attributes, ";")
  }

  /** The assignment that clears the cookie. */
  const ClearAssignment := Assignment("", ClearAttributes)

  /** `JSON.stringify` of the fifteen-field settings object and `JSON.parse`
      of cookie text back into one (`None`: parsing threw). */
  datatype Codec = Codec(encode: Settings -> string, decode: string -> Option<Settings>)

  /** `saveSettings`: the assignment to `document.cookie`, or `None` when the
      page has no save checkbox. */
  function Save(checkbox: Option<bool>, s: Settings, codec: Codec): (w: Option<string>)
    ensures w.None? <==> checkbox.None?
    ensures checkbox == Some(true) ==> w == Some(Assignment(codec.encode(s), SaveAttributes))
    ensures checkbox == Some(false) ==> w == Some(ClearAssignment)
  {
    match checkbox
    case None => None
    case Some(checked) =>
      if checked then Some(Assignment(codec.encode(s), SaveAttributes))
      else Some(ClearAssignment)
  }

  /** The jar after an optional assignment. */
  function Commit(jar: Jar, w: Option<string>): (r: Jar)
    requires WellFormed(jar)
    ensures WellFormed(r)
  {
    match w
    case None => jar
    case Some(assignment) => Write(jar, assignment)
  }

  /** The clear attributes expire the cookie at once. */
  lemma ClearMaxAge()
    ensures MaxAge(ClearAttributes) == Some(-1)
  {
    var last := ClearAttributes[1];
    assert StartsWith(last, MaxAgePrefix);
    var v := last[|MaxAgePrefix|..];
    assert v == "-1";
    assert v[1..] == "1";
    assert DigitsValue(v[1..]) == 1;
    assert MaxAgeValue(v) == Some(-1);
  }

  /** The clearing assignment removes the settings cookie. */
  lemma ClearRemoves(jar: Jar)
    requires WellFormed(jar)
    ensures Write(jar, ClearAssignment) == Remove(jar, CookieName)
  {
    SettingsPrefixShape();
    var attributes := ClearAttributes;
    assert NoChar(attributes[0], ';') && NoChar(attributes[1], ';');
    ParseAssignment(CookieName, "", attributes);
    ClearMaxAge();
  }

  /** The save attributes keep the cookie for a positive number of seconds. */
  lemma SaveMaxAge()
    ensures MaxAge(SaveAttributes).Some? && MaxAge(SaveAttributes).value > 0
  {
    var attributes := SaveAttributes;
    assert attributes[2][0] == 's';
    assert !StartsWith(attributes[2], MaxAgePrefix);
    assert StartsWith(attributes[1], MaxAgePrefix);
    var v := attributes[1][|MaxAgePrefix|..];
    assert v == "31536000";
    LeadingDigitPositive(v);
    assert attributes[..2][1] == attributes[1];
    assert MaxAgeValue(v) == Some(DigitsValue(v));
  }

  /** Saving stores the encoding as the settings cookie when it contains no
      `;`; the other cookies are untouched. */
  lemma SaveStores(jar: Jar, e: string)
    requires WellFormed(jar) && NoChar(e, ';')
    ensures Write(jar, Assignment(e, SaveAttributes)) == Store(jar, Cookie(CookieName, e))
  {
    SettingsPrefixShape();
    var attributes := SaveAttributes;
    assert NoChar(attributes[0], ';') && NoChar(attributes[1], ';') && NoChar(attributes[2], ';');
    ParseAssignment(CookieName, e, attributes);
    SaveMaxAge();
  }

  /** The text `loadSettings` hands to `JSON.parse`: the part after the
      first `=` of the first "; "-separated entry that starts with
      `pwgen-settings=`. */
  function SettingsPayload(cookieText: string): (r: Option<string>)
    ensures var row := FirstWithPrefix(Split(cookieText, "; "), SettingsPrefix);
      && (r.Some? <==> row.Some?)
      && (r.Some? ==> row.value == SettingsPrefix + r.value)
  {
    match FirstWithPrefix(Split(cookieText, "; "), SettingsPrefix)
    case None => None
    case Some(row) =>
      SettingsPrefixShape();
      var rest := row[|SettingsPrefix|..];
      assert row == SettingsPrefix + rest by {
        assert row[..|SettingsPrefix|] == SettingsPrefix;
      }
      IndexOfCharAfter(CookieName, '=', rest);
      Some(row[IndexOfChar(row, '=') + 1..])
  }

  /** The page's preference controls and whether the page has a save
      checkbox (and if so its state). */
  datatype FormState = FormState(settings: Settings, saveCheckbox: Option<bool>)

  /** Two snapshots agree on everything except the two custom text
      fields. */
  predicate SameChoices(a: Settings, b: Settings) {
    && a.includeUppercase == b.includeUppercase
    && a.includeDigits == b.includeDigits
    && a.includeSpecial == b.includeSpecial
    && a.excludeHomoglyphs == b.excludeHomoglyphs
    && a.length == b.length
    && a.passphraseToggle == b.passphraseToggle
    && a.capitalizeWords == b.capitalizeWords
    && a.includeNumbers == b.includeNumbers
    && a.includeSpecialChars == b.includeSpecialChars
    && a.wordCount == b.wordCount
    && a.separator == b.separator
    && a.maxWordLength == b.maxWordLength
    && a.language == b.language
  }

  /** The restored fields of a parsed snapshot. The custom separator and
      custom language are taken only when their select holds `custom`; a
      present save checkbox is ticked. */
  function Apply(form: FormState, d: Settings): (r: FormState)
    ensures SameChoices(r.settings, d)
    ensures r.settings.customSeparator ==
              if d.separator == Custom then d.customSeparator else form.settings.customSeparator
    ensures r.settings.customLanguage ==
              if d.language == Custom then d.customLanguage else form.settings.customLanguage
    ensures r.saveCheckbox == if form.saveCheckbox.Some? then Some(true) else None
  {
    var customSeparator := if d.separator == Custom then d.customSeparator else form.settings.customSeparator;
    var customLanguage := if d.language == Custom then d.customLanguage else form.settings.customLanguage;
    var restored := d.(customSeparator := customSeparator, customLanguage := customLanguage);
    assert SameChoices(restored, d);
    FormState(restored, if form.saveCheckbox.Some? then Some(true) else None)
  }

  /** A snapshot comes back exactly when each custom field is either in use
      or already what the page holds. */
  lemma ApplyExact(form: FormState, d: Settings)
    ensures Apply(form, d).settings == d <==>
      && (d.separator == Custom || d.customSeparator == form.settings.customSeparator)
      && (d.language == Custom || d.customLanguage == form.settings.customLanguage)
  {
    var r := Apply(form, d).settings;
    if r == d {
      assert r.customSeparator == d.customSeparator && r.customLanguage == d.customLanguage;
    }
  }

  /** What `loadSettings` did: the form afterwards, the assignment it made to
      `document.cookie`, and whether it re-ran the passphrase toggle (which
      regenerates the password). */
  datatype Loaded = Loaded(form: FormState, write: Option<string>, regenerate: bool)

  /** `loadSettings` reading the cookie string `cookieText`. */
  function Load(cookieText: string, form: FormState, codec: Codec): (r: Loaded)
    ensures SettingsPayload(cookieText).None? ==> r == Loaded(form, None, false)
    ensures SettingsPayload(cookieText).Some? && codec.decode(SettingsPayload(cookieText).value).None? ==>
              r == Loaded(form, Some(ClearAssignment), false)
    ensures SettingsPayload(cookieText).Some? && codec.decode(SettingsPayload(cookieText).value).Some? ==>
              r == Loaded(Apply(form, codec.decode(SettingsPayload(cookieText).value).value), None, true)
    ensures r.write.Some? ==> r.write == Some(ClearAssignment) && r.form == form && !r.regenerate
    ensures r.regenerate <==> r.write.None? && SettingsPayload(cookieText).Some?
  {
    match SettingsPayload(cookieText)
    case None => Loaded(form, None, false)
    case Some(payload) =>
      match codec.decode(payload)
      case None => Loaded(form, Some(ClearAssignment), false)
      case Some(d) => Loaded(Apply(form, d), None, true)
  }

  /** Loading from a jar looks only at the `pwgen-settings` cookie: absent
      means nothing happens, unparseable means the cookie is cleared and the
      form left alone, parseable means the snapshot is applied. */
  lemma LoadFromJar(jar: Jar, form: FormState, codec: Codec)
    requires WellFormed(jar)
    ensures var r := Load(CookieString(jar), form, codec);
      match ValueOf(jar, CookieName)
      case None => r == Loaded(form, None, false)
      case Some(v) =>
        match codec.decode(v)
        case None => r == Loaded(form, Some(ClearAssignment), false)
        case Some(d) => r == Loaded(Apply(form, d), None, true)
  {
    SettingsPrefixShape();
    FindCookie(jar, CookieName);
  }

  /** Clearing, then loading: nothing is found and nothing happens. */
  lemma LoadAfterClear(jar: Jar, form: FormState, codec: Codec)
    requires WellFormed(jar)
    ensures Load(CookieString(Write(jar, ClearAssignment)), form, codec) == Loaded(form, None, false)
  {
    ClearRemoves(jar);
    var after := Remove(jar, CookieName);
    LoadFromJar(after, form, codec);
  }

  /** A corrupt cookie is cleared on the first load, so a second load finds
      nothing and leaves the form alone. */
  lemma CorruptCookieCleared(jar: Jar, form: FormState, codec: Codec)
    requires WellFormed(jar)
    requires ValueOf(jar, CookieName).Some? && codec.decode(ValueOf(jar, CookieName).value).None?
    ensures var first := Load(CookieString(jar), form, codec);
      && first == Loaded(form, Some(ClearAssignment), false)
      && Load(CookieString(Commit(jar, first.write)), first.form, codec) == Loaded(form, None, false)
  {
    LoadFromJar(jar, form, codec);
    LoadAfterClear(jar, form, codec);
  }

  /** Saving with the box ticked and loading again restores the snapshot,
      provided its encoding has no `;` and decodes back to it. */
  lemma SaveThenLoad(jar: Jar, form: FormState, s: Settings, codec: Codec)
    requires WellFormed(jar)
    requires NoChar(codec.encode(s), ';') && codec.decode(codec.encode(s)) == Some(s)
    ensures var after := Commit(jar, Save(Some(true), s, codec));
      Load(CookieString(after), form, codec) == Loaded(Apply(form, s), None, true)
  {
    var e := codec.encode(s);
    SaveStores(jar, e);
    var after := Store(jar, Cookie(CookieName, e));
    StoreThenValue(jar, Cookie(CookieName, e));
    LoadFromJar(after, form, codec);
  }

  /** Whatever precedes them, the save attributes decide the Max-Age. */
  lemma SaveAttributesLast(tail: string)
    ensures MaxAge(Split(tail + ";" + Join(SaveAttributes, ";"), ";")) == MaxAge(SaveAttributes)
  {
    var attributes := SaveAttributes;
    assert NoChar(attributes[0], ';') && NoChar(attributes[1], ';') && NoChar(attributes[2], ';');
    SplitBeforeJoin(tail + ";" + Join(attributes, ";"), tail, attributes, ";");
    SaveMaxAge();
    MaxAgeLastWins(Split(tail, ";"), attributes);
  }

  /** A save whose encoding has a `;` stores only the text before it; the
      rest is read as attributes, which the save's own Max-Age overrides. */
  lemma SaveStoresHead(jar: Jar, head: string, tail: string)
    requires WellFormed(jar) && NoChar(head, ';')
    ensures Write(jar, Assignment(head + ";" + tail, SaveAttributes)) == Store(jar, Cookie(CookieName, head))
  {
    SettingsPrefixShape();
    var rest := tail + ";" + Join(SaveAttributes, ";");
    assert Assignment(head + ";" + tail, SaveAttributes) == CookieName + "=" + head + ";" + rest;
    ParsePair(CookieName, head, rest);
    SaveAttributesLast(tail);
    SaveMaxAge();
  }

  /** A `;` inside the encoding ends the cookie value: loading decodes only
      the part before it and, when that does not parse, clears the cookie. */
  lemma SemicolonCutsSnapshot(jar: Jar, form: FormState, s: Settings, codec: Codec, head: string, tail: string)
    requires WellFormed(jar)
    requires codec.encode(s) == head + ";" + tail && NoChar(head, ';')
    ensures var after := Commit(jar, Save(Some(true), s, codec));
      && ValueOf(after, CookieName) == Some(head)
      && Load(CookieString(after), form, codec)
         == match codec.decode(head)
            case None => Loaded(form, Some(ClearAssignment), false)
            case Some(d) => Loaded(Apply(form, d), None, true)
  {
    SaveStoresHead(jar, head, tail);
    var after := Store(jar, Cookie(CookieName, head));
    StoreThenValue(jar, Cookie(CookieName, head));
    LoadFromJar(after, form, codec);
  }

  /** Saving with the box unticked and loading again finds nothing, so the
      form keeps what it shows. */
  lemma ClearThenLoad(jar: Jar, form: FormState, s: Settings, codec: Codec)
    requires WellFormed(jar)
    ensures var after := Commit(jar, Save(Some(false), s, codec));
      Load(CookieString(after), form, codec) == Loaded(form, None, false)
  {
    LoadAfterClear(jar, form, codec);
  }
}

=== FILE: text.dfy ===
/** String helpers with the semantics of the JavaScript and Python string
    operations the controller and the request handler use. */
module Text {
  import opened Wrappers

  /** Python's `str.lower` restricted to ASCII: A-Z map to a-z. */
  function LowerChar(c: char): char {
    if 'A' <= c <= 'Z' then (c as int + 32) as char else c
  }

  function Lower(s: string): (r: string)
    ensures |r| == |s|
  {
    seq(|s|, i requires 0 <= i < |s| => LowerChar(s[i]))
  }

  /** JavaScript's `String.prototype.startsWith`. */
  predicate StartsWith(s: string, prefix: string) {
    |prefix| <= |s| && s[..|prefix|] == prefix
  }

  predicate OccursAt(s: string, t: string, i: nat) {
    i + |t| <= |s| && s[i..i + |t|] == t
  }

  /** The first occurrence of `t` in `s` at or after position `i`. */
  function FindFrom(s: string, t: string, i: nat): (r: Option<nat>)
    requires i <= |s|
    decreases |s| - i
    ensures r.Some? ==> i <= r.value && OccursAt(s, t, r.value)
    ensures r.Some? ==> forall j :: i <= j < r.value ==> !OccursAt(s, t, j)
    ensures r.None? ==> forall j :: i <= j <= |s| ==> !OccursAt(s, t, j)
  {
    if OccursAt(s, t, i) then Some(i)
    else if i == |s| then None
    else FindFrom(s, t, i + 1)
  }

  /** The first occurrence of `t` in `s` is the one at `k`. */
  lemma FindFirst(s: string, t: string, k: nat)
    requires OccursAt(s, t, k)
    requires forall j :: 0 <= j < k ==> !OccursAt(s, t, j)
    ensures FindFrom(s, t, 0) == Some(k)
  {
  }

  /** JavaScript's `String.prototype.indexOf` for one character:
      -1 when the character does not occur. */
  function IndexOfChar(s: string, c: char): (r: int)
    ensures -1 <= r < |s|
    ensures r >= 0 ==> s[r] == c && forall j :: 0 <= j < r ==> s[j] != c
    ensures r == -1 ==> forall j :: 0 <= j < |s| ==> s[j] != c
  {
    if |s| == 0 then -1
    else if s[0] == c then 0
    else
      var k := IndexOfChar(s[1..], c);
      if k == -1 then -1 else k + 1
  }

  predicate NoChar(s: string, c: char) {
    forall i :: 0 <= i < |s| ==> s[i] != c
  }

  /** The first `c` of `head + [c] + rest` follows `head` when `head` has
      none, and cutting there gives back both halves. */
  lemma IndexOfCharAfter(head: string, c: char, rest: string)
    requires NoChar(head, c)
    ensures IndexOfChar(head + [c] + rest, c) == |head|
    ensures (head + [c] + rest)[..|head|] == head
    ensures (head + [c] + rest)[|head| + 1..] == rest
  {
    var s := head + [c] + rest;
    assert s[|head|] == c;
    assert forall j :: 0 <= j < |head| ==> s[j] == head[j];
  }

  /** JavaScript's `String.prototype.split` with a non-empty separator:
      the pieces between successive left-to-right occurrences. */
  function Split(s: string, sep: string): (parts: seq<string>)
    requires |sep| > 0
    decreases |s|
    ensures |parts| >= 1
  {
    match FindFrom(s, sep, 0)
    case None => [s]
    case Some(i) => [s[..i]] + Split(s[i + |sep|..], sep)
  }

  /** JavaScript's `Array.prototype.join`. */
  function Join(parts: seq<string>, sep: string): string
  {
    if |parts| == 0 then ""
    else if |parts| == 1 then parts[0]
    else parts[0] + sep + Join(parts[1..], sep)
  }

  /** Text without the separator's first character is one piece. */
  lemma SplitNone(p: string, sep: string)
    requires |sep| > 0 && NoChar(p, sep[0])
    ensures Split(p, sep) == [p]
  {
    forall j | 0 <= j <= |p| ensures !OccursAt(p, sep, j) {
      if j + |sep| <= |p| {
        assert p[j..j + |sep|][0] == p[j];
      }
    }
  }

  /** Splitting cuts a prefix without the separator's first character off
      as the first piece. */
  lemma SplitAtFirst(s: string, head: string, sep: string, rest: string)
    requires |sep| > 0 && NoChar(head, sep[0]) && s == head + sep + rest
    ensures Split(s, sep) == [head] + Split(rest, sep)
  {
    assert OccursAt(s, sep, |head|) by {
      assert s[|head|..|head| + |sep|] == sep;
    }
    forall j | 0 <= j < |head| ensures !OccursAt(s, sep, j) {
      assert s[j] == head[j];
      if j + |sep| <= |s| {
        assert s[j..j + |sep|][0] == s[j];
      }
    }
    FindFirst(s, sep, |head|);
    assert s[..|head|] == head;
    assert s[|head| + |sep|..] == rest;
  }

  /** Splitting undoes joining when no piece contains the separator's first
      character. */
  lemma {:induction false} SplitJoin(parts: seq<string>, sep: string)
    requires |parts| >= 1 && |sep| > 0
    requires forall k :: 0 <= k < |parts| ==> NoChar(parts[k], sep[0])
    ensures Split(Join(parts, sep), sep) == parts
    decreases |parts|
  {
    var p := parts[0];
    if |parts| == 1 {
      SplitNone(p, sep);
    } else {
      var rest := Join(parts[1..], sep);
      SplitAtFirst(Join(parts, sep), p, sep, rest);
      SplitJoin(parts[1..], sep);
      assert parts == [p] + parts[1..];
    }
  }

  /** Text free of the separator's first character, followed by the
      separator and a join, splits into that text and the joined pieces. */
  lemma SplitJoinAfter(s: string, x: string, parts: seq<string>, sep: string)
    requires |sep| > 0 && |parts| >= 1 && NoChar(x, sep[0])
    requires forall k :: 0 <= k < |parts| ==> NoChar(parts[k], sep[0])
    requires s == x + sep + Join(parts, sep)
    ensures Split(s, sep) == Split(x, sep) + parts
  {
    SplitNone(x, sep);
    SplitAtFirst(s, x, sep, Join(parts, sep));
    SplitJoin(parts, sep);
  }

  /** The first occurrence of a character cuts the text into a part free
      of it and the rest. */
  lemma CutAtChar(x: string, sep: string)
    requires |sep| == 1 && IndexOfChar(x, sep[0]) >= 0
    ensures var i := IndexOfChar(x, sep[0]);
      x == x[..i] + sep + x[i + 1..] && NoChar(x[..i], sep[0])
  {
    var i := IndexOfChar(x, sep[0]);
    assert x[i..i + 1] == sep;
  }

  /** Regrouping `head + sep + rest`, followed by `sep + tail`. A proof
      step only, kept separate to keep the verifier's cost down. */
  lemma Regroup(s: string, x: string, head: string, rest: string, tail: string, sep: string)
    requires x == head + sep + rest && s == x + sep + tail
    ensures s == head + sep + (rest + sep + tail)
  {
  }

  /** Prepending one piece commutes with appending the rest. A proof step
      only, kept separate to keep the verifier's cost down. */
  lemma ConsAppend(head: string, pieces: seq<string>, parts: seq<string>)
    ensures [head] + (pieces + parts) == ([head] + pieces) + parts
  {
  }

  /** One step of `SplitBeforeJoin`: a first piece cut off both texts. */
  lemma SplitBeforeJoinStep(s: string, x: string, head: string, rest: string, tail: string,
                            parts: seq<string>, sep: string)
    requires |sep| > 0 && NoChar(head, sep[0])
    requires x == head + sep + rest && s == x + sep + tail
    requires Split(rest + sep + tail, sep) == Split(rest, sep) + parts
    ensures Split(s, sep) == Split(x, sep) + parts
  {
    var later := rest + sep + tail;
    Regroup(s, x, head, rest, tail, sep);
    SplitAtFirst(s, head, sep, later);
    SplitAtFirst(x, head, sep, rest);
    ConsAppend(head, Split(rest, sep), parts);
  }

  /** Splitting text `x` followed by the separator and a join (together
      `s`) yields the pieces of `x` followed by the joined pieces. */
  lemma {:induction false} SplitBeforeJoin(s: string, x: string, parts: seq<string>, sep: string)
    requires |sep| == 1 && |parts| >= 1
    requires forall k :: 0 <= k < |parts| ==> NoChar(parts[k], sep[0])
    requires s == x + sep + Join(parts, sep)
    ensures Split(s, sep) == Split(x, sep) + parts
    decreases |x|
  {
    var tail := Join(parts, sep);
    var i := IndexOfChar(x, sep[0]);
    if i == -1 {
      SplitJoinAfter(s, x, parts, sep);
    } else {
      CutAtChar(x, sep);
      var rest := x[i + 1..];
      SplitBeforeJoin(rest + sep + tail, rest, parts, sep);
      SplitBeforeJoinStep(s, x, x[..i], rest, tail, parts, sep);
    }
  }

  /** No row before position `k` carries `prefix`. */
  predicate NoneBefore(rows: seq<string>, prefix: string, k: nat) {
    forall j :: 0 <= j < k && j < |rows| ==> !StartsWith(rows[j], prefix)
  }

  /** JavaScript's `Array.prototype.find` with a `startsWith` test: the first
      element carrying `prefix`. */
  function FirstWithPrefix(rows: seq<string>, prefix: string): (r: Option<string>)
    ensures r.Some? ==> StartsWith(r.value, prefix)
    ensures r.Some? ==> exists k :: 0 <= k < |rows| && rows[k] == r.value && NoneBefore(rows, prefix, k)
    ensures r.None? <==> NoneBefore(rows, prefix, |rows|)
  {
    if |rows| == 0 then None
    else if StartsWith(rows[0], prefix) then
      assert rows[0] == rows[0] && NoneBefore(rows, prefix, 0);
      Some(rows[0])
    else
      var r := FirstWithPrefix(rows[1..], prefix);
      assert r.Some? ==> exists k :: 0 <= k < |rows| && rows[k] == r.value && NoneBefore(rows, prefix, k) by {
        if r.Some? {
          var k :| 0 <= k < |rows[1..]| && rows[1..][k] == r.value && NoneBefore(rows[1..], prefix, k);
          assert rows[k + 1] == r.value;
          assert NoneBefore(rows, prefix, k + 1) by {
            forall j | 0 <= j < k + 1 ensures !StartsWith(rows[j], prefix) {
              if j > 0 { assert rows[j] == rows[1..][j - 1]; }
            }
          }
        }
      }
      assert r.None? ==> NoneBefore(rows, prefix, |rows|) by {
        if r.None? {
          forall k | 0 <= k < |rows| ensures !StartsWith(rows[k], prefix) {
            if k > 0 { assert rows[k] == rows[1..][k - 1]; }
          }
        }
      }
      assert NoneBefore(rows, prefix, |rows|) ==> r.None? by {
        if NoneBefore(rows, prefix, |rows|) {
          assert forall j :: 0 <= j < |rows[1..]| ==> rows[1..][j] == rows[j + 1];
        }
      }
      r
  }
}

=== FILE: wrappers.dfy ===
/** Optional values and results shared by the client and server models. */
module Wrappers {

  /** An optional value: `None` stands for JavaScript's `undefined`/`null`
      or a lookup that found nothing. */
  datatype Option<+T> = None | Some(value: T) {

    /** The wrapped value, or `default` when there is none. */
    function GetOr(default: T): T {
      match this
      case Some(v) => v
      case None => default
    }
  }

  /** A computation that either produced a value or raised an error. */
  datatype Result<+R, +E> = Success(value: R) | Failure(error: E)
}
